=== FILE: README.md ===
# Hopscotch hash map, modelled in Dafny

This project models the C hopscotch hash map of `map.c`, `map.h` and
`internal.c`. It is a string-keyed map from NUL-terminated keys to `int`
values:

- Every key has a home bucket: the low bits of its 32-bit FNV-1a hash.
- The key lives in one of the eight buckets starting at its home, its
  neighbourhood.
- Each bucket has an 8-bit hop bitmap, read most significant bit first. It
  records which buckets of its own neighbourhood hold keys whose home it is.
- Lookup scans the home's set bits in offset order.
- Insertion probes forward to the first empty bucket. It then moves keys
  towards their homes until that bucket is within eight of the new key's
  home.
- The map doubles in three cases: the load factor 0.98 is reached, the new
  key's home neighbourhood is full, or no key can be moved. It does so by
  re-inserting every bucket into a fresh array with `map_set`. Those nested
  insertions may grow the fresh array again, so one growth can more than
  double the size.

Modules, in dependency order:

- `Uint32` (`uint32.dfy`): 32-bit unsigned arithmetic on naturals.
  - Bitwise and, or and xor are defined by recursion on bits.
  - It holds `next_pow2` as the C code computes it, by smearing bits, and
    a reference "least power of two at or above" (`CeilPow2`). One lemma
    proves the two equal on every 32-bit input.
  - It holds `constexpr_log2` and its floor-logarithm property.
- `Wrappers` (`wrappers.dfy`): `Option`.
- `Fnv` (`hash.dfy`): `map_hash` on memory read from the key pointer, the
  reference FNV-1a fold, and `map_create_key`.
- `Neighbourhood` (`neighbourhood.dfy`): the hop bitmap as `bv8`, with
  `map_nhd_mask`, `map_nbh_isset` and `map_nbh_full`. It also holds the
  first-set-offset scan of `map_internal_swap`.
- `Addressing` (`addressing.dfy`): ring arithmetic (`Fwd`, `Back`, `Dist`)
  and the C index macros.
  - The macros are `map_hash_index`, `map_create_mask`, `map_next_index`
    and `map_move_index`. `map_move_index` includes its `int64_t` two's
    complement mask.
  - Each macro is proved equal to the ring arithmetic for power-of-two
    sizes.
- `Table` (`table.dfy`): buckets, the map header, the layout invariant,
  the abstract contents, `map_new`, `map_internal_get` and `map_get`.
- `Displace` (`displace.dfy`): one displacement step of
  `map_internal_swap`, the final write of `map_set`, and the overwrite of a
  present key. Each comes with its effect on the layout and the contents.
- `Insert` (`insert.dfy`): `map_set`, the probe, the swap loop, `map_grow`
  and `map_resize`. These are mutually recursive functions that terminate
  because every growth at least doubles the size, and the size is bounded
  by 2^31.
- `Findings` (`findings.dfy`): three defects of the C code, each modelled
  as written next to its corrected form.

How the model is set up:

- **Invariant.** `Layout(bs, hole)` says three things:
  - every occupied bucket lies within eight buckets of its key's home, and
    the home's bitmap names it;
  - every set bit names an occupied bucket whose key has that home;
  - no key occurs twice.

  During displacement one bucket, the hole, may hold a stale copy of a key
  that has already moved. `map_internal_swap` never clears the bucket it
  moves a key out of. The layout ignores that bucket and requires it to be
  empty or an exact copy of a live bucket.
- **Contents.** The meaning of a table is `Contents`: the key/value pairs
  of its occupied buckets, read in index order, a later bucket overriding
  an earlier one. For a table satisfying the invariant this is an ordinary
  finite map with one entry per occupied bucket. It is also what
  `map_resize` produces when it re-inserts the buckets in index order.
- **Count.** `count` is the number of distinct keys.
- **Load factor.** The float `0.98f` is exactly `16441672 / 2^24`.
  `count >= size * load_factor` is modelled as
  `count * 2^24 >= size * 16441672`.

Two facts about the code shape what is modelled:

- `map_delete` is declared at map.h:61 and never defined, so there is no
  deletion to model.
- A failed `calloc` in `map_resize` restores the old array but not the old
  header: `size`, `mask` and `count` are already overwritten at
  map.c:49-51 when map.c:64-66 puts the old buckets back. Allocation is not
  modelled (see Left out).

Where the model departs from the code as written, the departure is listed
under Findings, next to a member that models the code as written, or under
Left out where the model does not follow the code (the float load-factor
check, and nested failures during a resize).

## Model

| member | source | states |
|---|---|---|
| `Fnv.MapHashIsFnv1a` | map.c:6-13 | `map_hash` of a key followed by NUL and any further bytes equals the FNV-1a fold of the key. The fold starts at 2166136261 and xors each byte in, then multiplies by 16777619 modulo 2^32. Bytes after the first NUL are ignored. |
| `Fnv.MapHashOfCString` | map.c:6-13 | The hash of any memory equals the FNV-1a of the C string it holds, i.e. of the bytes before the first NUL. |
| `Fnv.Fnv1aBound` | map.c:8-12 | Every hash fits in a `uint32_t`. |
| `Fnv.CreateKey` | internal.c:13-14 | The key pair holds the key and a hash that equals the FNV-1a of that same key. |
| `Neighbourhood.NhdMaskIsShift` | map.h:21 | The bit of offset `n` is `1 << (7 - n)`. |
| `Neighbourhood.NhdMaskSingleBit` | map.h:20-21 | Each offset's mask is a single bit. Offset 0 is `0x80` and offset 7 is `0x01`. |
| `Neighbourhood.NhdMaskDistinct` | map.h:21 | Distinct offsets have disjoint bits. |
| `Neighbourhood.OffsetsOfSetBit` | map.c:164 | Or-ing an offset's mask adds exactly that offset to the set of offsets `map_nbh_isset` reports. |
| `Neighbourhood.OffsetsOfClearBit` | map.c:118 | And-not-ing an offset's mask removes exactly that offset from the set of offsets `map_nbh_isset` reports. |
| `Neighbourhood.OffsetsDetermine` | map.h:23 | Two bitmaps for which `map_nbh_isset` reports the same offsets are equal. |
| `Neighbourhood.SetBitEffect` | map.c:164 | Or-ing an offset's mask sets that offset and leaves the other seven as they were. |
| `Neighbourhood.ClearBitEffect` | map.c:118 | And-not-ing an offset's mask clears that offset and leaves the other seven as they were. |
| `Neighbourhood.HopExtensional` | map.h:42 | A bitmap is determined by which of its eight offsets are set. |
| `Neighbourhood.IsFullIff` | map.h:16-25 | `map_nbh_full` holds iff the bitmap is `0xFF`, iff all eight offsets are set, iff the bitmap names eight offsets. |
| `Neighbourhood.FirstSet` | map.c:106-113 | The scan returns an offset below the limit that is set with no smaller one set. It returns none exactly when no offset below the limit is set. |
| `Uint32.Log2Floor` | internal.c:1-20 | `log2_64(n)` is the floor of the base-2 logarithm for `1 <= n < 2^32`, and 0 for `n = 0`. |
| `Uint32.Log2OfPow2` | internal.c:16-20 | `log2_64(2^k) = k` for `k < 32`. |
| `Uint32.NextPow2IsCeilPow2` | internal.c:22-32 | The bit-smearing `next_pow2` equals the least power of two at or above its input, for every 32-bit input. Inputs 0 and above 2^31 wrap to 0. |
| `Uint32.CeilPow2Bounds` | internal.c:22-32 | For `1 <= v <= 2^31`, the result is a power of two in `[v, 2v)`. |
| `Uint32.CeilPow2Least` | internal.c:22-32 | The result is not larger than any power of two at or above `v`. |
| `Uint32.CeilPow2Idempotent` | internal.c:22-32 | Rounding up again changes nothing, and the result is at most 2^31. |
| `Uint32.OrOneOfPow2` | map.h:35 | For a power of two `size >= 2`, `size` or-ed with 1 is `size + 1`. |
| `Uint32.GrowRequestDoubles` | map.h:35 | For `2 <= size <= 2^30`, the grow request `size + 1` rounds up to exactly `2 * size`. |
| `Addressing.CreateMaskOfPow2` | map.h:29 | For a power-of-two size below 2^32, `map_create_mask(size) = size - 1`. |
| `Addressing.HashIndexIsMod` | map.h:27 | With that mask, `map_hash_index` is the hash modulo the size. |
| `Addressing.NextIndexIsFwd` | map.h:33 | `map_next_index(i)` is one step forward around the ring, wrapping from the last bucket to the first. |
| `Addressing.MoveIndexIsMod` | internal.c:34-38 | `map_move_index(index, num)` is `(index + num)` modulo the size for every step that keeps the `int64_t` sum in range. |
| `Addressing.MoveIndexForward` | map.c:78 | A step of `0 <= d <= size` moves `d` buckets forward around the ring. |
| `Addressing.MoveIndexBackward` | map.c:102 | The unsigned step `-MAP_NHD_LEN + 1`, which is 2^32 - 7 once widened, moves 7 buckets back. This holds because the size divides 2^32. |
| `Table.New` | map.c:15-33 | A new map satisfies the invariant, has 16 buckets and count 0, and is empty. |
| `Table.Fresh` | map.c:49-52 | A zeroed array of a power-of-two size `n`, with mask `n - 1` and count 0, satisfies the invariant and is empty. |
| `Table.InvCount` | map.c:167 | Under the invariant, `count` is the number of distinct keys in the map. |
| `Table.GetFrom` | map.c:75-84 | The scan over the home's set offsets from `o` on returns a bucket holding the key, and it is the first set offset that does. When it finds nothing, no set offset from `o` on names a bucket holding the key. |
| `Table.NeighbourhoodFinds` | map.c:73-84 | Under the invariant, a key that is present sits at a set offset of its home's bitmap. |
| `Table.ScanFinds` | map.c:73-84 | Under the invariant, the scan of the home's neighbourhood finds the key iff the key is present. |
| `Table.InternalGet` | map.c:69-86 | A bucket it returns holds the key. Under the invariant it finds the key iff the key is present. |
| `Table.MapGet` | map.c:88-96 | Under the invariant, `map_get` succeeds iff the key is in the contents, and returns the value the contents give. |
| `Displace.SwapBasics` | map.c:115-122 | The displaced key lives, and its home is the candidate bucket. The free bucket is exactly `dd` after the candidate, so the key's new offset is `dd <= 7`, inside its neighbourhood. |
| `Displace.SwapEffect` | map.c:116-121 | The free bucket receives the moved key and value. The moved key's old bucket keeps its key. The candidate's bitmap loses `offset` and gains `distance`. No other bucket changes. |
| `Displace.SwapLayout` | map.c:116-122 | A displacement keeps the layout invariant, with the hole moved to the bucket the key left. |
| `Displace.SwapContents` | map.c:116-121 | A displacement does not change the contents. |
| `Displace.SwapOccupied` | map.c:120-121 | A displacement fills the free bucket if it was empty and leaves every other bucket's occupancy as it was. |
| `Displace.PutEffect` | map.c:164-166 | The final write stores the key and value in the free bucket and sets bit `distance` in the home's bitmap, not in the free bucket's. Nothing else changes. |
| `Displace.PutLayout` | map.c:163-168 | Writing a new key at distance below 8 from its home restores the layout invariant with no hole. |
| `Displace.PutContents` | map.c:164-167 | The write adds exactly the new pair to the contents, and one occupied bucket if the free bucket was empty. |
| `Displace.OverwriteEffect` | map.c:143-146 | Overwriting a present key keeps the layout and the occupied buckets, and changes the contents only at that key. |
| `Insert.LoadFactor` | map.c:135 | The check `count >= size * 0.98f` is `count * 2^24 >= size * 16441672`, because `0.98f` is 0.98 rounded to the nearest multiple of 2^-24, 32/100 of a step above it. An overloaded map is more than 98% full, and a full map is always overloaded. |
| `Insert.RoomBelowLoad` | map.c:135 | Below the load factor there is an empty bucket, so the probe terminates. |
| `Table.HomeIndex` | map.c:139-140 | The index `map_set` computes from the key's hash is the key's home. |
| `Insert.Probe` | map.c:156-159 | The probe stops at the first empty bucket after the home. Its distance is that bucket's circular offset from the home, and every bucket before it is occupied. |
| `Insert.SwapFrom` | map.c:102-130 | The swap loop first takes the farthest candidate with a movable key, seven back, then nearer ones. Within the candidate it takes the smallest set offset below the candidate's distance, and the table becomes that displacement. It reports failure only when no candidate has a set offset below its distance. |
| `Insert.SettleStep` | map.c:122-123 | After a displacement the free bucket is `distance - offset >= 1` nearer the home, on the probe path, and the invariant, contents and occupancy carry over. |
| `Insert.Settle` | map.c:161-173 | The insertion loop either writes the key, which restores the invariant and adds exactly the new pair, or gets stuck with the contents unchanged. |
| `Insert.Set` | map.c:133-174 | A successful `map_set` keeps the invariant and never shrinks the map. Under the invariant every key lies in its home's neighbourhood and is named by the home's bitmap, keys are pairwise distinct, and the count matches. The contents then map the key to the value, with every other key unchanged. |
| `Insert.Insert` | map.c:139-153 | Overwrite, grow on a full neighbourhood, or placement all give the contents updated at the key. The overwrite leaves the count unchanged. |
| `Insert.Place` | map.c:155-173 | A new key whose neighbourhood has room is written after probing and displacing, with the map grown and the set restarted when stuck. |
| `Insert.Grow` | map.h:35 | Growing yields a map satisfying the invariant, at least twice the size, with the same contents. It fails at 2^31 buckets. |
| `Insert.GrowRequest` | map.h:35 | The grow request, `size` or-ed with 1, is `size + 1`. It rounds to `2 * size`, or to 0 when the size is 2^31. |
| `Insert.Resize` | map.c:41-67 | A request no larger than the size leaves the map as it is. Otherwise a successful resize yields a map satisfying the invariant, at least `next_pow2(request)` in size, with the same contents. A request that rounds to 0 fails. |
| `Insert.ResizeTarget` | map.c:50-51 | The new size is a power of two at least the request and at most 2^31, and `map_create_mask` gives it the mask `size - 1`. |
| `Insert.Reinsert` | map.c:57-59 | Setting the occupied buckets from `i` on yields the contents of the accumulated map updated by those buckets in index order. |
| `Insert.GetAfterSet` | map.c:133-174 | After a successful `map_set(key, v)`, `map_get(key)` returns `v` and every other key reads as before. The count equals the number of distinct keys. |
| `Insert.EmptyNotFull` | map.c:151-153 | Under the invariant an empty bucket's neighbourhood is never full, because offset 0 would name the empty bucket itself. |
| `Insert.SetIntoEmptyHome` | map.c:133-168 | Below the load factor, `map_set` of a new key whose home bucket is empty succeeds. It writes the key and value into the home bucket, sets offset 0 of the home's bitmap, adds one to the count, and leaves everything else alone. |
| `Insert.SetOfNew` | map.c:133-168 | `map_set` on a new map succeeds, and the map then holds exactly that one pair. |
| `Insert.SetOverwrite` | map.c:143-148 | Below the load factor, `map_set` of a present key succeeds. It replaces only the key and value of the bucket holding the key: bitmaps, other buckets, size and count stay as they were. |
| `Insert.SetGrowsWhenOverloaded` | map.c:135-137 | When the load factor is reached, a successful `map_set` at least doubles the size. |
| `Insert.GetOfNew` | map.c:15-33 | A new map reads every key as absent. |
| `Findings.OverwriteAsWritten` | map.c:143-148 | The overwrite branch as written updates the pair and increments the count. |
| `Findings.OverwriteCountDrifts` | map.c:147 | After that increment the count is one more than the number of distinct keys, so the invariant no longer holds. |
| `Findings.OverwriteKeepsCount` | map.c:143-146 | Without the increment, the count still equals the number of distinct keys. |
| `Findings.SwapSourceEscapes` | map.c:117 | When the candidate's neighbourhood wraps, the bucket read as written lies past the end of the array. The key to move is at the wrapped index. |
| `Findings.SwapSourceCorrected` | map.c:116-121 | The wrapped index is a live bucket whose home is the candidate, and it is the key the corrected displacement moves. |
| `Findings.ResizedSizeAsWritten` | map.c:50 | The size installed as written is `next_pow2` of the request, unchecked. |
| `Findings.GrowAtCapacityAsWritten` | map.c:50-51 | Growing a map of 2^31 buckets installs size 0 as written. |

## Left out

- Allocation and freeing are not modelled. This covers `malloc` and `calloc` in `map_new` and `map_resize`, and `map_free`. The model has no allocation failure. The header that a failed `calloc` in `map_resize` leaves behind is not modelled either: `size`, `mask` and `count` are already overwritten when the old array is restored.
- `map_delete`: it is declared but has no body to model.
- Keys are modelled as the byte content of the C string, compared by content as `strcmp` does. The caller-owned pointer, and its replacement when a key is overwritten, are invisible at that level.
- The bit-field layout of `hop_info : 8` and the unused `MAP_NHD_OUTER` are not modelled.
- Insert.Overloaded: the comparison is exact rational arithmetic. The C comparison converts `count` to `float`, which keeps 24 significant bits. For a map of 2^k buckets the C check can therefore fire up to 2^(k-25) keys before the exact threshold: 1 key early at 2^25 buckets, 64 at 2^31. Below 2^25 buckets the two agree.
- Insert.Reinsert: a nested `map_set` that fails makes the whole resize fail. The C loop ignores the return value of the nested `map_set` and carries on.
- Insert.Set: success is proved for a new map, for an overwrite, and for a new key whose home bucket is empty, all below the load factor. For the other paths the contract states only what a success gives. The model fails only where a growth fails at 2^31 buckets. The C code also fails on an allocation failure. At 2^31 buckets it installs size 0 and mask 0 in the header (map.c:50-51). It then fails or re-inserts into a zero-sized array, depending on what `calloc(0, ...)` returns.
- Insert.Resize: sizes above 2^31 are outside the model. `next_pow2` wraps such requests to 0, and the model reports that as a failure. The C code installs size 0 and mask 0 in the header instead, then fails or goes on with a zero-sized array, depending on what `calloc(0, ...)` returns (see Findings).
- `map_set` through a map whose header is inconsistent, as left by the defects below, is not modelled. Every operation requires the invariant.

## Findings

| source | as written | input that shows it | evidently intended | confidence | as-written member | corrected member |
|---|---|---|---|---|---|---|
| map.c:147 | Overwriting a present key increments `count`. | Set key "a" on a new map, then set "a" again: count 2, one key. | The count of distinct keys is unchanged by an overwrite, so the load factor is not reached early. | high, not executed | `Findings.OverwriteCountDrifts` | `Findings.OverwriteKeepsCount` |
| map.c:117 | The moved key is read at `bucket + offset` without wrapping. | 16 buckets, free bucket 5, candidate 14 whose first set offset is 2 (its key in bucket 0): the code reads bucket 16, past the array. | `map_move_index(map, move_index, offset)`, the wrapped bucket that the bitmap names. | high, not executed | `Findings.SwapSourceEscapes` | `Findings.SwapSourceCorrected` |
| map.c:50 | `next_pow2` of the grow request is installed unchecked. | A map of 2^31 buckets that must grow requests 2^31 + 1, which `next_pow2` wraps to 0: size 0, mask 0. | Growth fails at the largest size. | medium, not executed | `Findings.GrowAtCapacityAsWritten` | `Insert.Grow` |

=== FILE: addressing.dfy ===
/**
 * Bucket addressing on a ring of `n` buckets.
 *
 * The table functions move around the bucket array with `Fwd`, `Back` and
 * `Dist`, written without `%` so that their proofs stay linear. The C macros
 * that the map actually uses (`map_hash_index`, `map_next_index`,
 * `map_create_mask` and `map_move_index`) are defined here as the bit
 * operations they are, and each is proved equal to the ring arithmetic for
 * the power-of-two sizes the map uses.
 */
module Addressing {
  import opened Uint32

  // ---------------------------------------------------------------------------
  // Ring arithmetic
  // ---------------------------------------------------------------------------

  /** The bucket `d` steps after `i`. */
  function Fwd(i: nat, d: nat, n: nat): nat
    requires i < n && d <= n
  {
    if i + d < n then i + d else i + d - n
  }

  /** The bucket `d` steps before `i`. */
  function Back(i: nat, d: nat, n: nat): nat
    requires i < n && d <= n
  {
    if d <= i then i - d else i + n - d
  }

  /** How many steps forward lead from bucket `from` to bucket `to`. */
  function Dist(from: nat, to: nat, n: nat): nat
    requires from < n && to < n
  {
    if from <= to then to - from else to + n - from
  }

  lemma FwdIsMod(i: nat, d: nat, n: nat)
    requires i < n && d <= n
    ensures Fwd(i, d, n) < n && Fwd(i, d, n) == (i + d) % n
  {
    if i + d < n {
      DivModUnique(i + d, n, 0, i + d);
    } else {
      DivModUnique(i + d, n, 1, i + d - n);
    }
  }

  lemma BackIsMod(i: nat, d: nat, n: nat)
    requires i < n && d <= n
    ensures Back(i, d, n) < n && Back(i, d, n) == (i - d) % n
  {
    if d <= i {
      DivModUnique(i - d, n, 0, i - d);
    } else {
      DivModUnique(i - d, n, -1, i + n - d);
    }
  }

  /** Walking `d < n` steps forward covers a distance of `d`. */
  lemma DistOfFwd(i: nat, d: nat, n: nat)
    requires i < n && d < n
    ensures Fwd(i, d, n) < n && Dist(i, Fwd(i, d, n), n) == d
  {}

  /** Walking the distance from `i` to `j` arrives at `j`. */
  lemma FwdOfDist(i: nat, j: nat, n: nat)
    requires i < n && j < n
    ensures Dist(i, j, n) < n && Fwd(i, Dist(i, j, n), n) == j
  {}

  // ---------------------------------------------------------------------------
  // Modulo facts
  // ---------------------------------------------------------------------------

  lemma ModAddMultiple(x: int, m: nat, q: nat)
    requires m > 0
    ensures (x + m * q) % m == x % m
  {
    DivModUnique(x + m * q, m, x / m + q, x % m);
  }

  /** Reducing modulo a multiple `mq` of `m` first does not change the remainder modulo `m`. */
  lemma ModOfMod(x: int, m: nat, q: nat, mq: nat)
    requires m > 0 && q > 0 && mq == m * q
    ensures mq > 0 && (x % mq) % m == x % m
  {
    MulNonneg(m, q - 1);
    var a, r := x / mq, x % mq;
    var b, c := r / m, r % m;
    assert x == mq * a + r;
    assert r == m * b + c;
    assert mq * a == m * (q * a);
    assert x == m * (q * a + b) + c;
    DivModUnique(x, m, q * a + b, c);
  }

  lemma Pow2Splits(k: nat, w: nat)
    requires k <= w
    ensures Pow2(w) == Pow2(k) * Pow2(w - k)
  {
    Pow2Add(k, w - k);
  }

  // ---------------------------------------------------------------------------
  // The index macros of the C source
  // ---------------------------------------------------------------------------

  /** 2^63 and 2^64: the bounds of `int64_t` and the modulus of its bit pattern. */
  const I64: nat := 0x8000_0000_0000_0000
  const U64: nat := 0x1_0000_0000_0000_0000

  /** `map_create_mask(size)`: the low `log2_64(size)` bits set. */
  function CreateMask(size: nat): nat
    requires IsU32(size)
  {
    LowOnes(Log2(size))
  }

  /** `map_hash_index`: the hash masked with `map->mask`. */
  function HashIndex(hash: nat, mask: nat): nat {
    BitAnd(hash, mask)
  }

  /** `map_next_index`: `(i + 1) & mask` on `uint32_t`. */
  function NextIndex(i: nat, mask: nat): nat {
    BitAnd((i + 1) % WORD, mask)
  }

  /**
   * The precondition of `map_move_index` that keeps `int64_t` from overflowing:
   * the sum of a non-negative step and the index must stay below 2^63.
   */
  predicate MoveInRange(index: nat, num: int) {
    -(I64 as int) <= num < I64 && (num >= 0 ==> num + index < I64)
  }

  /**
   * The `int64_t` sum in `map_move_index`: the index moved by `num`, with
   * `size` added once when a negative step passes the start of the array.
   */
  function WideSum(index: nat, num: int, size: nat): int {
    num + index + (if num < 0 && -num > index then size else 0)
  }

  /**
   * `map_move_index`: the wide sum masked. Masking a negative `int64_t` works
   * on its two's-complement pattern, which is the sum modulo 2^64.
   */
  function MoveIndex(index: nat, num: int, size: nat, mask: nat): nat
    requires IsU32(index) && IsU32(size) && MoveInRange(index, num)
  {
    BitAnd(WideSum(index, num, size) % U64, mask)
  }

  /** For a power-of-two size, the mask is `size - 1`. */
  lemma CreateMaskOfPow2(k: nat)
    requires k < 32
    ensures IsU32(Pow2(k)) && CreateMask(Pow2(k)) == Pow2(k) - 1
  {
    Pow2Literals();
    Pow2Monotone(k, 32);
    Log2OfPow2(k);
    LowOnesValue(k);
  }

  /** With the mask of a power-of-two size, the home index of a hash is the hash modulo the size. */
  lemma HashIndexIsMod(hash: nat, k: nat)
    ensures HashIndex(hash, Pow2(k) - 1) == hash % Pow2(k)
  {
    AndLowOnes(hash, k);
  }

  /** The next index wraps from the last bucket to the first. */
  lemma NextIndexIsFwd(i: nat, k: nat)
    requires k <= 31 && i < Pow2(k)
    ensures NextIndex(i, Pow2(k) - 1) == Fwd(i, 1, Pow2(k))
  {
    var p := Pow2(k);
    Pow2Literals();
    Pow2Le(k, 31);
    ModSmall(i + 1, WORD);
    assert NextIndex(i, p - 1) == BitAnd(i + 1, p - 1);
    AndLowOnes(i + 1, k);
    FwdIsMod(i, 1, p);
  }

  /** Masking the `int64_t` bit pattern of `sum` with `2^k - 1` gives `sum` modulo `2^k`. */
  lemma MaskOfWide(sum: int, k: nat)
    requires k <= 64
    ensures BitAnd(sum % U64, Pow2(k) - 1) == sum % Pow2(k)
  {
    var w := sum % U64;
    AndLowOnes(w, k);
    Pow2Literals();
    Pow2Add(32, 32);
    Pow2Splits(k, 64);
    ModOfMod(sum, Pow2(k), Pow2(64 - k), Pow2(64));
  }

  /** Adding the size when a negative step passes the start does not change the remainder. */
  lemma WideSumMod(index: nat, num: int, p: nat)
    requires p > 0
    ensures WideSum(index, num, p) % p == (index + num) % p
  {
    if num < 0 && -num > index {
      ModAddMultiple(num + index, p, 1);
    }
  }

  /** Moving by any step is addition modulo the size. */
  lemma MoveIndexIsMod(index: nat, num: int, k: nat)
    requires k <= 31 && index < Pow2(k) && MoveInRange(index, num)
    ensures IsU32(index) && IsU32(Pow2(k))
    ensures MoveIndex(index, num, Pow2(k), Pow2(k) - 1) == (index + num) % Pow2(k)
  {
    var p := Pow2(k);
    Pow2Literals();
    Pow2Le(k, 31);
    MaskOfWide(WideSum(index, num, p), k);
    WideSumMod(index, num, p);
  }

  /** A non-negative step `d <= size` moves forward around the ring. */
  lemma MoveIndexForward(index: nat, d: nat, k: nat)
    requires k <= 31 && index < Pow2(k) && d <= Pow2(k)
    ensures MoveInRange(index, d) && IsU32(index) && IsU32(Pow2(k))
    ensures MoveIndex(index, d, Pow2(k), Pow2(k) - 1) == Fwd(index, d, Pow2(k))
  {
    Pow2Literals();
    Pow2Le(k, 31);
    MoveIndexIsMod(index, d, k);
    FwdIsMod(index, d, Pow2(k));
  }

  /**
   * A step of `2^32 - d`, which is what the unsigned expression `-d` becomes
   * once widened to `int64_t`, moves `d` buckets backwards: the size divides
   * 2^32.
   */
  lemma MoveIndexBackward(index: nat, d: nat, k: nat)
    requires k <= 31 && index < Pow2(k) && 0 < d <= Pow2(k)
    ensures MoveInRange(index, WORD - d) && IsU32(index) && IsU32(Pow2(k))
    ensures MoveIndex(index, WORD - d, Pow2(k), Pow2(k) - 1) == Back(index, d, Pow2(k))
  {
    var p := Pow2(k);
    Pow2Literals();
    Pow2Le(k, 31);
    MoveIndexIsMod(index, WORD - d, k);
    Pow2Splits(k, 32);
    assert index + (WORD - d) == (index - d) + p * Pow2(32 - k);
    ModAddMultiple(index - d, p, Pow2(32 - k));
    BackIsMod(index, d, p);
  }
}

=== FILE: displace.dfy ===
/**
 * Moving a key towards its home: one step of `map_internal_swap`, and the
 * final write of `map_set` once the free bucket is inside the neighbourhood.
 *
 * The free bucket `p` is the layout's hole: either empty, or a stale copy of
 * a key that has already been moved nearer to its home. A displacement picks
 * a bucket `c` whose neighbourhood reaches `p`, moves the key at the first
 * set offset `off` of `c` into `p`, and makes that key's old bucket the new
 * hole. It leaves the old bucket's key in place, as the C code does.
 */
module Displace {
  import opened Wrappers
  import opened Fnv
  import opened Neighbourhood
  import opened Addressing
  import opened Table

  /** The hop bits of `c` after `off` is cleared and `dd` set. */
  lemma MovedBits(h: Hop, off: Offset, dd: Offset, o: Offset)
    ensures IsSet(SetBit(ClearBit(h, off), dd), o) == (o == dd || (o != off && IsSet(h, o)))
  {
    SetBitEffect(ClearBit(h, off), dd, o);
    ClearBitEffect(h, off, o);
  }

  /**
   * One displacement (map.c): bucket `c = p - dd` gives up offset `off` and
   * takes offset `dd`; the key and value at `c + off` are copied to `p`.
   */
  function Swap(bs: seq<Bucket>, p: nat, dd: Offset, off: Offset): seq<Bucket>
    requires NHD_LEN <= |bs| && p < |bs|
  {
    var n := |bs|;
    var c := Back(p, dd, n);
    var s := Fwd(c, off, n);
    var bs1 := bs[c := bs[c].(hop := SetBit(ClearBit(bs[c].hop, off), dd))];
    bs1[p := bs1[p].(key := bs[s].key, value := bs[s].value)]
  }

  /** The state in which the C code displaces: `c = p - dd` has offset `off < dd` set. */
  ghost predicate SwapReady(bs: seq<Bucket>, p: nat, dd: Offset, off: Offset) {
    Layout(bs, Some(p)) && p < |bs| && 1 <= dd && off < dd
    && IsSet(bs[Back(p, dd, |bs|)].hop, off)
  }

  /** The bucket that moves holds a live key whose home is `c`, and it is neither `c`'s target nor `p`. */
  lemma SwapBasics(bs: seq<Bucket>, p: nat, dd: Offset, off: Offset)
    requires SwapReady(bs, p, dd, off)
    ensures var n := |bs|; var c := Back(p, dd, n); var s := Fwd(c, off, n);
      && Live(bs, Some(p), s) && Home(bs[s].key.value, n) == c
      && s != p && c != p && Fwd(c, dd, n) == p && Dist(c, p, n) == dd
      && s == Back(p, dd - off, n)
  {
    var n := |bs|;
    var c := Back(p, dd, n);
    assert Names(bs, Some(p), c, off);
  }

  /** A live bucket with home `c` other than the moving one is not at offset `off` of `c`. */
  lemma OtherOffset(bs: seq<Bucket>, p: nat, dd: Offset, off: Offset, j: nat)
    requires SwapReady(bs, p, dd, off)
    requires Live(bs, Some(p), j) && j != Fwd(Back(p, dd, |bs|), off, |bs|)
    ensures Dist(Back(p, dd, |bs|), j, |bs|) != off
  {
    var n := |bs|;
    FwdOfDist(Back(p, dd, n), j, n);
  }

  lemma SwapPlaced(bs: seq<Bucket>, p: nat, dd: Offset, off: Offset)
    requires SwapReady(bs, p, dd, off)
    ensures Placed(Swap(bs, p, dd, off), Some(Fwd(Back(p, dd, |bs|), off, |bs|)))
  {
    var n := |bs|;
    var c := Back(p, dd, n);
    var s := Fwd(c, off, n);
    var bs' := Swap(bs, p, dd, off);
    SwapBasics(bs, p, dd, off);
    forall j: nat | Live(bs', Some(s), j) ensures InNeighbourhood(bs', j) {
      if j == p {
        MovedBits(bs[c].hop, off, dd, dd);
      } else {
        assert Live(bs, Some(p), j) && InNeighbourhood(bs, j);
        var h := Home(bs[j].key.value, n);
        var d := Dist(h, j, n);
        if h == c {
          OtherOffset(bs, p, dd, off, j);
          MovedBits(bs[c].hop, off, dd, d);
        }
      }
    }
  }

  lemma SwapPointed(bs: seq<Bucket>, p: nat, dd: Offset, off: Offset)
    requires SwapReady(bs, p, dd, off)
    ensures Pointed(Swap(bs, p, dd, off), Some(Fwd(Back(p, dd, |bs|), off, |bs|)))
  {
    var n := |bs|;
    var c := Back(p, dd, n);
    var s := Fwd(c, off, n);
    var bs' := Swap(bs, p, dd, off);
    SwapBasics(bs, p, dd, off);
    forall i: nat, o: Offset | i < n && IsSet(bs'[i].hop, o) ensures Names(bs', Some(s), i, o) {
      if i == c {
        MovedBits(bs[c].hop, off, dd, o);
        if o != dd {
          assert Names(bs, Some(p), c, o);
        }
      } else {
        assert Names(bs, Some(p), i, o);
      }
    }
  }

  lemma SwapUnique(bs: seq<Bucket>, p: nat, dd: Offset, off: Offset)
    requires SwapReady(bs, p, dd, off)
    ensures Unique(Swap(bs, p, dd, off), Some(Fwd(Back(p, dd, |bs|), off, |bs|)))
  {
    var n := |bs|;
    var c := Back(p, dd, n);
    var s := Fwd(c, off, n);
    var bs' := Swap(bs, p, dd, off);
    SwapBasics(bs, p, dd, off);
    forall i: nat, j: nat | Live(bs', Some(s), i) && Live(bs', Some(s), j) && bs'[i].key == bs'[j].key
      ensures i == j
    {
      if i != p && j != p {
        assert Live(bs, Some(p), i) && Live(bs, Some(p), j);
      }
    }
  }

  /** A displacement keeps the layout, with the moved key's old bucket as the new hole. */
  lemma SwapLayout(bs: seq<Bucket>, p: nat, dd: Offset, off: Offset)
    requires SwapReady(bs, p, dd, off)
    ensures Layout(Swap(bs, p, dd, off), Some(Fwd(Back(p, dd, |bs|), off, |bs|)))
  {
    var n := |bs|;
    var s := Fwd(Back(p, dd, n), off, n);
    var bs' := Swap(bs, p, dd, off);
    SwapBasics(bs, p, dd, off);
    SwapPlaced(bs, p, dd, off);
    SwapPointed(bs, p, dd, off);
    SwapUnique(bs, p, dd, off);
    assert Live(bs', Some(s), p);
  }

  /** A displacement changes no key's value. */
  lemma SwapContents(bs: seq<Bucket>, p: nat, dd: Offset, off: Offset)
    requires SwapReady(bs, p, dd, off)
    ensures Contents(Swap(bs, p, dd, off)) == Contents(bs)
  {
    var n := |bs|;
    var c := Back(p, dd, n);
    var s := Fwd(c, off, n);
    var bs1 := bs[c := bs[c].(hop := SetBit(ClearBit(bs[c].hop, off), dd))];
    var b := bs1[p].(key := bs[s].key, value := bs[s].value);
    SwapBasics(bs, p, dd, off);
    SwapLayout(bs, p, dd, off);
    assert Swap(bs, p, dd, off) == bs1[p := b];
    LayoutKeyFunctional(bs, Some(p));
    LayoutKeyFunctional(bs1[p := b], Some(s));
    assert SamePairs(bs, bs1);
    SamePairsAgree(bs, bs1);
    if bs[p].key.Some? {
      var l := LiveCopy(bs, Some(p), p);
      assert bs1[l].key == bs1[p].key;
    }
    UpdateContents(bs1, p, b);
    var k := bs[s].key.value;
    ContentsChar(bs);
    assert k in Contents(bs) && Contents(bs)[k] == b.value;
    UpdateSame(Contents(bs), k, b.value);
  }

  lemma UpdateSame<K, V>(c: map<K, V>, k: K, v: V)
    requires k in c && c[k] == v
    ensures c[k := v] == c
  {}

  /** A displacement fills `p` if it was empty; the moved key's old bucket stays occupied. */
  lemma SwapOccupied(bs: seq<Bucket>, p: nat, dd: Offset, off: Offset)
    requires SwapReady(bs, p, dd, off)
    ensures Occupied(Swap(bs, p, dd, off)) == Occupied(bs) + Vacant(bs, p)
  {
    var n := |bs|;
    var c := Back(p, dd, n);
    var s := Fwd(c, off, n);
    var bs1 := bs[c := bs[c].(hop := SetBit(ClearBit(bs[c].hop, off), dd))];
    var b := bs1[p].(key := bs[s].key, value := bs[s].value);
    SwapBasics(bs, p, dd, off);
    assert Swap(bs, p, dd, off) == bs1[p := b];
    assert SamePairs(bs, bs1);
    SamePairsAgree(bs, bs1);
    OccupiedUpdate(bs1, p, b);
  }

  /**
   * What a displacement changes: `p` receives the key and value of the moved
   * bucket `s = p - (dd - off)`, which keeps its key as a stale copy; the
   * candidate `c = p - dd` trades offset `off` for offset `dd`; no other
   * bucket changes.
   */
  lemma SwapEffect(bs: seq<Bucket>, p: nat, dd: Offset, off: Offset)
    requires SwapReady(bs, p, dd, off)
    ensures var n := |bs|; var c := Back(p, dd, n); var s := Back(p, dd - off, n); var r := Swap(bs, p, dd, off);
      && |r| == n && c != p && s != p
      && r[p].key == bs[s].key && r[p].value == bs[s].value && r[s].key == bs[s].key
      && (forall o: Offset :: IsSet(r[c].hop, o) <==> (o == dd || (o != off && IsSet(bs[c].hop, o))))
      && (forall j :: 0 <= j < n && j != p && j != c ==> r[j] == bs[j])
  {
    var c := Back(p, dd, |bs|);
    SwapBasics(bs, p, dd, off);
    forall o: Offset ensures IsSet(Swap(bs, p, dd, off)[c].hop, o) <==> (o == dd || (o != off && IsSet(bs[c].hop, o))) {
      MovedBits(bs[c].hop, off, dd, o);
    }
  }

  // ---------------------------------------------------------------------------
  // The final write
  // ---------------------------------------------------------------------------

  /**
   * The write of `map_set` once the free bucket `p` is at distance `d < 8`
   * from the home `index`: the home's bitmap gains offset `d` and `p`
   * receives the key and value.
   */
  function Put(bs: seq<Bucket>, index: nat, p: nat, d: Offset, key: Key, v: Value): seq<Bucket>
    requires index < |bs| && p < |bs|
  {
    var bs1 := bs[index := bs[index].(hop := SetBit(bs[index].hop, d))];
    bs1[p := bs1[p].(key := Some(key), value := v)]
  }

  /**
   * What the final write changes: `p` holds the key and value, the home
   * `index` gains offset `d` in its bitmap (not the bucket `p`, unless they
   * coincide), and no other bucket changes.
   */
  lemma PutEffect(bs: seq<Bucket>, index: nat, p: nat, d: Offset, key: Key, v: Value)
    requires index < |bs| && p < |bs|
    ensures var r := Put(bs, index, p, d, key, v);
      && |r| == |bs| && r[p].key == Some(key) && r[p].value == v
      && (forall o: Offset :: IsSet(r[index].hop, o) <==> (o == d || IsSet(bs[index].hop, o)))
      && (p != index ==> r[p].hop == bs[p].hop)
      && (forall j :: 0 <= j < |bs| && j != p && j != index ==> r[j] == bs[j])
  {
    forall o: Offset ensures IsSet(Put(bs, index, p, d, key, v)[index].hop, o) <==> (o == d || IsSet(bs[index].hop, o)) {
      SetBitEffect(bs[index].hop, d, o);
    }
  }

  ghost predicate PutReady(bs: seq<Bucket>, index: nat, p: nat, d: nat, key: Key) {
    Layout(bs, Some(p)) && index < |bs| && d < NHD_LEN && p == Fwd(index, d, |bs|)
    && index == Home(key, |bs|) && key !in Contents(bs)
  }

  /** No live bucket holds a key that is missing from the contents. */
  lemma AbsentNotLive(bs: seq<Bucket>, hole: Option<nat>, key: Key, j: nat)
    requires Layout(bs, hole) && key !in Contents(bs) && j < |bs|
    ensures bs[j].key != Some(key)
  {
    LayoutKeyFunctional(bs, hole);
    ContentsChar(bs);
  }

  lemma PutPlaced(bs: seq<Bucket>, index: nat, p: nat, d: Offset, key: Key, v: Value)
    requires PutReady(bs, index, p, d, key)
    ensures Placed(Put(bs, index, p, d, key, v), None)
  {
    var n := |bs|;
    var bs' := Put(bs, index, p, d, key, v);
    DistOfFwd(index, d, n);
    forall j: nat | Live(bs', None, j) ensures InNeighbourhood(bs', j) {
      if j == p {
        SetBitEffect(bs[index].hop, d, d);
      } else {
        assert Live(bs, Some(p), j) && InNeighbourhood(bs, j);
        var h := Home(bs[j].key.value, n);
        SetBitEffect(bs[h].hop, d, Dist(h, j, n));
      }
    }
  }

  lemma PutPointed(bs: seq<Bucket>, index: nat, p: nat, d: Offset, key: Key, v: Value)
    requires PutReady(bs, index, p, d, key)
    ensures Pointed(Put(bs, index, p, d, key, v), None)
  {
    var n := |bs|;
    var bs' := Put(bs, index, p, d, key, v);
    forall i: nat, o: Offset | i < n && IsSet(bs'[i].hop, o) ensures Names(bs', None, i, o) {
      if i == index {
        SetBitEffect(bs[index].hop, d, o);
      }
      if i != index || o != d {
        assert Names(bs, Some(p), i, o);
      }
    }
  }

  lemma PutUnique(bs: seq<Bucket>, index: nat, p: nat, d: Offset, key: Key, v: Value)
    requires PutReady(bs, index, p, d, key)
    ensures Unique(Put(bs, index, p, d, key, v), None)
  {
    var bs' := Put(bs, index, p, d, key, v);
    forall j: nat | j < |bs| ensures bs[j].key != Some(key) {
      AbsentNotLive(bs, Some(p), key, j);
    }
    forall i: nat, j: nat | Live(bs', None, i) && Live(bs', None, j) && bs'[i].key == bs'[j].key
      ensures i == j
    {
      if i != p && j != p {
        assert Live(bs, Some(p), i) && Live(bs, Some(p), j);
      }
    }
  }

  /** The write ends the insertion with a layout without a hole. */
  lemma PutLayout(bs: seq<Bucket>, index: nat, p: nat, d: Offset, key: Key, v: Value)
    requires PutReady(bs, index, p, d, key)
    ensures Layout(Put(bs, index, p, d, key, v), None)
  {
    PutPlaced(bs, index, p, d, key, v);
    PutPointed(bs, index, p, d, key, v);
    PutUnique(bs, index, p, d, key, v);
  }

  /** The write adds exactly the new pair, and fills `p` if it was empty. */
  lemma PutContents(bs: seq<Bucket>, index: nat, p: nat, d: Offset, key: Key, v: Value)
    requires PutReady(bs, index, p, d, key)
    ensures Contents(Put(bs, index, p, d, key, v)) == Contents(bs)[key := v]
    ensures Occupied(Put(bs, index, p, d, key, v)) == Occupied(bs) + Vacant(bs, p)
  {
    var bs1 := bs[index := bs[index].(hop := SetBit(bs[index].hop, d))];
    var b := bs1[p].(key := Some(key), value := v);
    PutLayout(bs, index, p, d, key, v);
    assert Put(bs, index, p, d, key, v) == bs1[p := b];
    LayoutKeyFunctional(bs, Some(p));
    LayoutKeyFunctional(bs1[p := b], None);
    assert SamePairs(bs, bs1);
    SamePairsAgree(bs, bs1);
    if bs[p].key.Some? {
      var l := LiveCopy(bs, Some(p), p);
      assert bs1[l].key == bs1[p].key;
    }
    UpdateContents(bs1, p, b);
    OccupiedUpdate(bs1, p, b);
  }

  // ---------------------------------------------------------------------------
  // Overwriting a key that is already present
  // ---------------------------------------------------------------------------

  /** `bucket->key = key; bucket->value = value;` on the bucket `map_internal_get` found. */
  function Overwrite(bs: seq<Bucket>, j: nat, key: Key, v: Value): seq<Bucket>
    requires j < |bs|
  {
    bs[j := bs[j].(key := Some(key), value := v)]
  }

  /** Overwriting keeps the layout and the number of occupied buckets, and updates one pair. */
  lemma OverwriteEffect(bs: seq<Bucket>, j: nat, key: Key, v: Value)
    requires Layout(bs, None) && j < |bs| && bs[j].key == Some(key)
    ensures Layout(Overwrite(bs, j, key, v), None)
    ensures Contents(Overwrite(bs, j, key, v)) == Contents(bs)[key := v]
    ensures Occupied(Overwrite(bs, j, key, v)) == Occupied(bs)
  {
    OverwriteLayout(bs, j, key, v);
    LayoutKeyFunctional(bs, None);
    LayoutKeyFunctional(Overwrite(bs, j, key, v), None);
    UpdateContents(bs, j, bs[j].(key := Some(key), value := v));
    OccupiedUpdate(bs, j, bs[j].(key := Some(key), value := v));
  }

  lemma OverwriteLayout(bs: seq<Bucket>, j: nat, key: Key, v: Value)
    requires Layout(bs, None) && j < |bs| && bs[j].key == Some(key)
    ensures Layout(Overwrite(bs, j, key, v), None)
  {
    var n := |bs|;
    var bs' := Overwrite(bs, j, key, v);
    forall i: nat | Live(bs', None, i) ensures InNeighbourhood(bs', i) {
      assert Live(bs, None, i) && InNeighbourhood(bs, i);
    }
    forall i: nat, o: Offset | i < n && IsSet(bs'[i].hop, o) ensures Names(bs', None, i, o) {
      assert Names(bs, None, i, o);
    }
    forall a: nat, b: nat | Live(bs', None, a) && Live(bs', None, b) && bs'[a].key == bs'[b].key
      ensures a == b
    {
      assert Live(bs, None, a) && Live(bs, None, b);
    }
  }
}

=== FILE: findings.dfy ===
/**
 * Three places where the C code does not do what the surrounding design
 * evidently intends. Each is modelled here as written, next to a lemma that
 * shows the discrepancy; the rest of the model uses the corrected behaviour.
 */
module Findings {
  import opened Wrappers
  import opened Uint32
  import opened Fnv
  import opened Neighbourhood
  import opened Addressing
  import opened Table
  import opened Displace
  import opened Insert

  // ---------------------------------------------------------------------------
  // The overwrite path counts the key again
  // ---------------------------------------------------------------------------

  /** The overwrite branch of `map_set` as written: it replaces the value and increments the count. */
  function OverwriteAsWritten(m: Map, j: nat, key: Key, v: Value): (r: Map)
    requires Inv(m) && j < m.size && m.buckets[j].key == Some(key)
    ensures r.size == m.size && Contents(r.buckets) == Contents(m.buckets)[key := v]
    ensures r.count == m.count + 1
  {
    OverwriteEffect(m.buckets, j, key, v);
    m.(buckets := Overwrite(m.buckets, j, key, v), count := m.count + 1)
  }

  /**
   * Setting a key that is already present leaves one more in the count than
   * there are distinct keys, so the count no longer matches the table, and
   * every further overwrite widens the gap.
   */
  lemma OverwriteCountDrifts(m: Map, j: nat, key: Key, v: Value)
    requires Inv(m) && j < m.size && m.buckets[j].key == Some(key)
    ensures OverwriteAsWritten(m, j, key, v).count == |Contents(OverwriteAsWritten(m, j, key, v).buckets).Keys| + 1
    ensures !Inv(OverwriteAsWritten(m, j, key, v))
  {
    var r := OverwriteAsWritten(m, j, key, v);
    InvCount(m);
    ContentsOfInv(m);
    assert key in Contents(m.buckets);
    assert Contents(r.buckets).Keys == Contents(m.buckets).Keys;
    if Inv(r) {
      InvCount(r);
    }
  }

  /** The corrected overwrite keeps the count equal to the number of distinct keys. */
  lemma OverwriteKeepsCount(m: Map, j: nat, key: Key, v: Value)
    requires Inv(m) && j < m.size && m.buckets[j].key == Some(key)
    ensures Inv(m.(buckets := Overwrite(m.buckets, j, key, v)))
    ensures m.count == |Contents(Overwrite(m.buckets, j, key, v)).Keys|
  {
    OverwriteEffect(m.buckets, j, key, v);
    InvCount(m.(buckets := Overwrite(m.buckets, j, key, v)));
  }

  // ---------------------------------------------------------------------------
  // The displaced key is read without wrapping
  // ---------------------------------------------------------------------------

  /** `bucket + offset` in `map_internal_swap`: the candidate's index plus the offset, not reduced by the size. */
  function SwapSourceAsWritten(c: nat, off: nat): nat {
    c + off
  }

  /**
   * When the candidate's neighbourhood wraps past the last bucket, the
   * bucket read as written lies beyond the array, while the key to move sits
   * at the wrapped index. For example, with 16 buckets, candidate 14 and
   * first set offset 2, the code reads bucket 16 and the key is in bucket 0.
   */
  lemma SwapSourceEscapes(bs: seq<Bucket>, p: nat, dd: Offset, off: Offset)
    requires SwapReady(bs, p, dd, off) && Back(p, dd, |bs|) + off >= |bs|
    ensures SwapSourceAsWritten(Back(p, dd, |bs|), off) >= |bs|
    ensures var s := Fwd(Back(p, dd, |bs|), off, |bs|);
      s == SwapSourceAsWritten(Back(p, dd, |bs|), off) - |bs| && bs[s].key.Some?
      && Home(bs[s].key.value, |bs|) == Back(p, dd, |bs|)
  {
    SwapBasics(bs, p, dd, off);
  }

  /** The corrected source index is the live bucket the candidate's bitmap names. */
  lemma SwapSourceCorrected(bs: seq<Bucket>, p: nat, dd: Offset, off: Offset)
    requires SwapReady(bs, p, dd, off)
    ensures var s := Fwd(Back(p, dd, |bs|), off, |bs|);
      s < |bs| && bs[s].key.Some? && Home(bs[s].key.value, |bs|) == Back(p, dd, |bs|)
      && Swap(bs, p, dd, off)[p].key == bs[s].key
  {
    SwapBasics(bs, p, dd, off);
    SwapEffect(bs, p, dd, off);
  }

  // ---------------------------------------------------------------------------
  // Growing the largest map asks for zero buckets
  // ---------------------------------------------------------------------------

  /** The size `map_resize` installs as written: `next_pow2` of the request, unchecked. */
  function ResizedSizeAsWritten(t: Map, req: nat): (n: nat)
    requires Wf(t) && IsU32(req) && req > t.size
    ensures n == CeilPow2(req)
  {
    NextPow2IsCeilPow2(req);
    NextPow2(req)
  }

  /**
   * Growing a map of 2^31 buckets asks `next_pow2` for 2^31 + 1, which wraps
   * to 0: as written the map is given zero buckets and mask 0.
   */
  lemma GrowAtCapacityAsWritten(t: Map)
    requires Wf(t) && t.size == MAX_SIZE
    ensures IsU32(BitOr(t.size, 1)) && BitOr(t.size, 1) > t.size && ResizedSizeAsWritten(t, BitOr(t.size, 1)) == 0
  {
    GrowRequest(t);
  }
}

=== FILE: hash.dfy ===
/**
 * The key hash: 32-bit FNV-1a over the bytes of a NUL-terminated string.
 *
 * `map_hash` starts from the FNV offset basis, and for every byte before the
 * terminator XORs the byte in and multiplies by the FNV prime, modulo 2^32.
 * Memory is modelled as a byte sequence read from the key pointer onwards; a
 * key proper is the NUL-free run of bytes before the terminator.
 */
module Fnv {
  import opened Uint32

  /** An `unsigned char`. */
  type Byte = b: nat | b < 256

  const OFFSET_BASIS: nat := 2166136261
  const PRIME: nat := 16777619

  /** The characters of a C string, without its terminator. */
  predicate NoNul(s: seq<Byte>) {
    forall i :: 0 <= i < |s| ==> s[i] != 0
  }

  type Key = s: seq<Byte> | NoNul(s)

  /** One round of the loop: `h ^= c, h *= 16777619` on `uint32_t`. */
  function Step(h: nat, c: Byte): nat {
    (BitXor(h, c) * PRIME) % WORD
  }

  /** The loop of `map_hash`, from hash `h`, reading until a NUL byte or the end of memory. */
  function HashFrom(h: nat, mem: seq<Byte>): nat
    decreases |mem|
  {
    if |mem| == 0 || mem[0] == 0 then h else HashFrom(Step(h, mem[0]), mem[1..])
  }

  /** `map_hash(str)`, with `str` pointing at `mem`. */
  function MapHash(mem: seq<Byte>): nat {
    HashFrom(OFFSET_BASIS, mem)
  }

  /**
   * The reference definition of FNV-1a: the hash of `s + [c]` is one round
   * applied to the hash of `s`.
   */
  function Fnv1a(s: seq<Byte>): nat
    decreases |s|
  {
    if |s| == 0 then OFFSET_BASIS else Step(Fnv1a(s[..|s| - 1]), s[|s| - 1])
  }

  /** The string that a C routine sees at `mem`: everything before the first NUL. */
  function CString(mem: seq<Byte>): (k: Key)
    ensures |k| <= |mem| && k == mem[..|k|]
    ensures |k| < |mem| ==> mem[|k|] == 0
    decreases |mem|
  {
    if |mem| == 0 || mem[0] == 0 then [] else [mem[0]] + CString(mem[1..])
  }

  /** Reading a NUL-free prefix `k` and then the rest of memory is one round per byte of `k`. */
  lemma {:induction false} HashFromAppend(h: nat, k: Key, rest: seq<Byte>)
    ensures HashFrom(h, k + rest) == HashFrom(FoldFrom(h, k), rest)
    decreases |k|
  {
    if |k| > 0 {
      var init, c := k[..|k| - 1], k[|k| - 1];
      assert k + rest == init + ([c] + rest);
      HashFromAppend(h, init, [c] + rest);
      assert ([c] + rest)[1..] == rest;
    } else {
      assert k + rest == rest;
    }
  }

  /** FNV-1a rounds over `k` from an arbitrary starting hash. */
  function FoldFrom(h: nat, k: seq<Byte>): nat
    decreases |k|
  {
    if |k| == 0 then h else Step(FoldFrom(h, k[..|k| - 1]), k[|k| - 1])
  }

  lemma {:induction false} FoldFromBasis(k: seq<Byte>)
    ensures FoldFrom(OFFSET_BASIS, k) == Fnv1a(k)
    decreases |k|
  {
    if |k| > 0 {
      FoldFromBasis(k[..|k| - 1]);
    }
  }

  /**
   * `map_hash` computes FNV-1a of the string before the terminator, whatever
   * memory follows it.
   */
  lemma MapHashIsFnv1a(k: Key, rest: seq<Byte>)
    ensures MapHash(k + [0] + rest) == Fnv1a(k)
    ensures MapHash(k) == Fnv1a(k)
  {
    HashFromAppend(OFFSET_BASIS, k, [0] + rest);
    assert k + [0] + rest == k + ([0] + rest);
    HashFromAppend(OFFSET_BASIS, k, []);
    assert k + [] == k;
    FoldFromBasis(k);
  }

  /** The hash of the memory depends only on the C string it holds. */
  lemma {:induction false} MapHashOfCString(mem: seq<Byte>)
    ensures MapHash(mem) == Fnv1a(CString(mem))
  {
    var k := CString(mem);
    if |k| < |mem| {
      assert mem == k + [0] + mem[|k| + 1..];
      MapHashIsFnv1a(k, mem[|k| + 1..]);
    } else {
      assert mem == k;
      MapHashIsFnv1a(k, []);
    }
  }

  /** Every hash is a `uint32_t`. */
  lemma Fnv1aBound(k: seq<Byte>)
    ensures IsU32(Fnv1a(k))
  {
    if |k| > 0 {
      assert Fnv1a(k) == Step(Fnv1a(k[..|k| - 1]), k[|k| - 1]);
    }
  }

  /** The pair that `map_create_key` builds: the key and its hash. */
  datatype MapKey = MapKey(value: Key, hash: nat)

  /** `map_create_key`: the key with its hash, which is the key's FNV-1a. */
  function CreateKey(key: Key): (r: MapKey)
    ensures r.value == key && r.hash == Fnv1a(key) && IsU32(r.hash)
  {
    MapHashIsFnv1a(key, []);
    Fnv1aBound(key);
    MapKey(key, MapHash(key))
  }
}

=== FILE: insert.dfy ===
/**
 * Insertion and growth: `map_set`, `map_internal_swap`, `map_resize` and
 * `map_grow`.
 *
 * `map_set` grows the map when the load factor is reached, overwrites a key
 * that is already present, and otherwise probes for the first empty bucket
 * after the key's home and displaces keys until that bucket is within eight
 * of the home. When the home's neighbourhood is full, or no key can be
 * displaced, the map doubles and the insertion starts over; doubling
 * re-inserts every occupied bucket into a fresh array with `map_set`. These
 * are the mutually recursive functions `Set`, `Insert`, `Grow`, `Resize` and
 * `Reinsert`; each terminates because every growth strictly increases the
 * size, which is bounded by `MAX_SIZE`.
 */
module Insert {
  import opened Wrappers
  import opened Uint32
  import opened Fnv
  import opened Neighbourhood
  import opened Addressing
  import opened Table
  import opened Displace

  // ---------------------------------------------------------------------------
  // Load factor
  // ---------------------------------------------------------------------------

  /** The float `0.98f` is exactly `16441672 / 2^24`. */
  const LOAD_NUM: nat := 16441672
  const LOAD_DEN: nat := 16777216

  /** `map->count >= map->size * map->load_factor`, in exact arithmetic. */
  predicate Overloaded(m: Map) {
    m.count * LOAD_DEN >= m.size * LOAD_NUM
  }

  /** Below the load factor there is an empty bucket. */
  lemma RoomBelowLoad(m: Map)
    requires !Overloaded(m)
    ensures m.count < m.size
  {
    if m.count >= m.size {
      MulLe(LOAD_DEN, m.size, m.count);
    }
  }

  /**
   * The load-factor check of `map_set`. `0.98f` is 0.98 rounded to the
   * nearest multiple of 2^-24, which is 32/100 of a step above 0.98. A map
   * that is overloaded is therefore more than 98% full, and a full map is
   * always overloaded.
   */
  lemma LoadFactor(m: Map)
    requires Wf(m)
    ensures 100 * LOAD_NUM == 98 * LOAD_DEN + 32
    ensures Overloaded(m) ==> 50 * m.count > 49 * m.size
    ensures m.size <= m.count ==> Overloaded(m)
  {
    assert m.size * (100 * LOAD_NUM) == m.size * (98 * LOAD_DEN) + 32 * m.size;
    if Overloaded(m) && 100 * m.count <= 98 * m.size {
      MulLe(LOAD_DEN, 100 * m.count, 98 * m.size);
    }
    if m.size <= m.count {
      MulLe(LOAD_DEN, m.size, m.count);
      MulLe(m.size, LOAD_NUM, LOAD_DEN);
    }
  }

  // ---------------------------------------------------------------------------
  // Probing for an empty bucket
  // ---------------------------------------------------------------------------

  /** Where the probe stopped, and how far from the home. */
  datatype Probed = Probed(at: nat, distance: nat)

  /** `map_next_index` on a well-formed map is one step forward around the ring. */
  lemma NextIsFwd(m: Map, i: nat)
    requires Wf(m) && i < m.size
    ensures NextIndex(i, m.mask) == Fwd(i, 1, m.size)
  {
    WfExponent(m);
    NextIndexIsFwd(i, Exponent(m.size));
  }

  /** While an empty bucket remains, the buckets `0..d` after `index` cannot all be occupied. */
  lemma ProbeRoom(bs: seq<Bucket>, index: nat, d: nat)
    requires index < |bs| && d < |bs|
    requires forall e :: 0 <= e <= d ==> bs[Fwd(index, e, |bs|)].key.Some?
    requires exists j :: 0 <= j < |bs| && bs[j].key.None?
    ensures d + 1 < |bs|
  {
    var j :| 0 <= j < |bs| && bs[j].key.None?;
    FwdOfDist(index, j, |bs|);
  }

  /**
   * One probe step: bucket `i` at distance `d` is occupied, and some bucket is
   * empty, so the next index is at distance `d + 1`, still inside the array.
   */
  lemma ProbeStep(m: Map, index: nat, i: nat, d: nat)
    requires Wf(m) && index < m.size && d < m.size && i == Fwd(index, d, m.size)
    requires forall e :: 0 <= e < d ==> m.buckets[Fwd(index, e, m.size)].key.Some?
    requires exists j :: 0 <= j < m.size && m.buckets[j].key.None?
    requires m.buckets[i].key.Some?
    ensures d + 1 < m.size && NextIndex(i, m.mask) == Fwd(index, d + 1, m.size)
    ensures forall e :: 0 <= e < d + 1 ==> m.buckets[Fwd(index, e, m.size)].key.Some?
  {
    ProbeRoom(m.buckets, index, d);
    NextIsFwd(m, i);
  }

  /**
   * The probe loop of `map_set`: from the home `index`, step with
   * `map_next_index` until a bucket is empty, counting the distance.
   */
  function Probe(m: Map, index: nat, i: nat, d: nat): (r: Probed)
    requires Wf(m) && index < m.size && d < m.size && i == Fwd(index, d, m.size)
    requires forall e :: 0 <= e < d ==> m.buckets[Fwd(index, e, m.size)].key.Some?
    requires exists j :: 0 <= j < m.size && m.buckets[j].key.None?
    ensures d <= r.distance < m.size && r.at == Fwd(index, r.distance, m.size)
    ensures m.buckets[r.at].key.None?
    ensures forall e :: 0 <= e < r.distance ==> m.buckets[Fwd(index, e, m.size)].key.Some?
    decreases m.size - d
  {
    if m.buckets[i].key.None? then Probed(i, d)
    else
      ProbeStep(m, index, i, d);
      Probe(m, index, NextIndex(i, m.mask), d + 1)
  }

  // ---------------------------------------------------------------------------
  // map_internal_swap
  // ---------------------------------------------------------------------------

  /** `-MAP_NHD_LEN + 1` evaluated in `unsigned int` and widened to `int64_t`: 2^32 - 7. */
  const SWAP_START: nat := WORD - (NHD_LEN - 1)

  /**
   * A successful displacement: the new table, the candidate's distance back
   * from the free bucket, and the offset of the key that moved.
   */
  datatype Swapped = Swapped(buckets: seq<Bucket>, distance: nat, offset: nat)

  /**
   * The loop of `map_internal_swap` from distance `dd` down to 1: bucket
   * `c = p - dd` is a candidate when one of its offsets below `dd` is set;
   * the key at the first such offset is moved into `p`. The farthest
   * candidate is taken, and the moved key stays inside its neighbourhood;
   * the free bucket becomes the one the key left, `distance - offset` nearer.
   */
  function SwapFrom(t: Map, p: nat, dd: nat, c: nat): (r: Option<Swapped>)
    requires Wf(t) && p < t.size && dd < NHD_LEN && c == Back(p, dd, t.size)
    ensures r.Some? ==> 1 <= r.value.distance <= dd && r.value.offset < r.value.distance
    ensures r.Some? ==> var h := t.buckets[Back(p, r.value.distance, t.size)].hop;
      IsSet(h, r.value.offset) && NoneBelow(h, r.value.offset)
    ensures r.Some? ==> forall e :: r.value.distance < e <= dd ==> NoneBelow(t.buckets[Back(p, e, t.size)].hop, e)
    ensures r.Some? ==> r.value.buckets == Swap(t.buckets, p, r.value.distance, r.value.offset)
    ensures r.None? ==> forall e :: 1 <= e <= dd ==> NoneBelow(t.buckets[Back(p, e, t.size)].hop, e)
    decreases dd
  {
    if dd == 0 then None
    else
      match FirstSet(t.buckets[c].hop, dd)
      case Some(off) =>
        Some(Swapped(Swap(t.buckets, p, dd, off), dd, off))
      case None =>
        NextCandidate(t, p, dd, c);
        var r := SwapFrom(t, p, dd - 1, NextIndex(c, t.mask));
        FartherNone(t.buckets, p, dd, r);
        r
  }

  /** The next candidate after `c = p - dd` is `p - (dd - 1)`. */
  lemma NextCandidate(t: Map, p: nat, dd: nat, c: nat)
    requires Wf(t) && p < t.size && 1 <= dd < NHD_LEN && c == Back(p, dd, t.size)
    ensures NextIndex(c, t.mask) == Back(p, dd - 1, t.size)
  {
    WfExponent(t);
    NextIndexIsFwd(c, Exponent(t.size));
  }

  /** A candidate with nothing to give at distance `dd` extends what the nearer ones report. */
  lemma FartherNone(bs: seq<Bucket>, p: nat, dd: nat, r: Option<Swapped>)
    requires p < |bs| && 1 <= dd < NHD_LEN <= |bs|
    requires NoneBelow(bs[Back(p, dd, |bs|)].hop, dd)
    requires r.Some? ==> r.value.distance <= dd - 1
    requires r.Some? ==> forall e :: r.value.distance < e <= dd - 1 ==> NoneBelow(bs[Back(p, e, |bs|)].hop, e)
    requires r.None? ==> forall e :: 1 <= e <= dd - 1 ==> NoneBelow(bs[Back(p, e, |bs|)].hop, e)
    ensures r.Some? ==> forall e :: r.value.distance < e <= dd ==> NoneBelow(bs[Back(p, e, |bs|)].hop, e)
    ensures r.None? ==> forall e :: 1 <= e <= dd ==> NoneBelow(bs[Back(p, e, |bs|)].hop, e)
  {}

  /** The facts about one displacement that the loop reports. */
  lemma SwapStep(bs: seq<Bucket>, p: nat, dd: Offset, off: Offset)
    requires SwapReady(bs, p, dd, off)
    ensures |Swap(bs, p, dd, off)| == |bs|
    ensures Layout(Swap(bs, p, dd, off), Some(Back(p, dd - off, |bs|)))
    ensures Contents(Swap(bs, p, dd, off)) == Contents(bs)
    ensures Occupied(Swap(bs, p, dd, off)) == Occupied(bs) + Vacant(bs, p)
    ensures Vacant(Swap(bs, p, dd, off), Back(p, dd - off, |bs|)) == 0
  {
    SwapBasics(bs, p, dd, off);
    SwapLayout(bs, p, dd, off);
    SwapContents(bs, p, dd, off);
    SwapOccupied(bs, p, dd, off);
  }

  // ---------------------------------------------------------------------------
  // The insertion loop of map_set
  // ---------------------------------------------------------------------------

  /** How the insertion loop ended: the key written, or no key left to displace. */
  datatype Outcome = Written(buckets: seq<Bucket>) | Stuck(buckets: seq<Bucket>)

  /** Moving back by what a displacement gained keeps the free bucket on the probe path. */
  lemma Nearer(index: nat, d: nat, g: nat, n: nat)
    requires index < n && g <= d < n
    ensures Back(Fwd(index, d, n), g, n) == Fwd(index, d - g, n)
  {}

  /**
   * The `while (1)` loop of `map_set`: write the key when the free bucket
   * `p` is within the neighbourhood of `index`, otherwise displace.
   */
  function Settle(t: Map, key: Key, v: Value, index: nat, p: nat, d: nat): (r: Outcome)
    requires Wf(t) && Layout(t.buckets, Some(p)) && index < t.size && d < t.size
    requires p == Fwd(index, d, t.size) && index == Home(key, t.size) && key !in Contents(t.buckets)
    ensures |r.buckets| == t.size
    ensures r.Written? ==> Layout(r.buckets, None) && Contents(r.buckets) == Contents(t.buckets)[key := v]
    ensures r.Written? ==> Occupied(r.buckets) == Occupied(t.buckets) + Vacant(t.buckets, p)
    ensures r.Stuck? ==> Contents(r.buckets) == Contents(t.buckets)
    decreases d
  {
    if d < NHD_LEN then
      WriteStep(t.buckets, index, p, d, key, v);
      Written(Put(t.buckets, index, p, d, key, v))
    else
      WfExponent(t);
      MoveIndexBackward(p, NHD_LEN - 1, Exponent(t.size));
      match SwapFrom(t, p, NHD_LEN - 1, MoveIndex(p, SWAP_START, t.size, t.mask))
      case None => Stuck(t.buckets)
      case Some(sw) =>
        var gain := sw.distance - sw.offset;
        SettleStep(t, key, index, p, d, sw);
        Settle(t.(buckets := sw.buckets), key, v, index, Back(p, gain, t.size), d - gain)
  }

  /** The final write of `map_set` completes the layout and adds the pair. */
  lemma WriteStep(bs: seq<Bucket>, index: nat, p: nat, d: Offset, key: Key, v: Value)
    requires PutReady(bs, index, p, d, key)
    ensures |Put(bs, index, p, d, key, v)| == |bs| && Layout(Put(bs, index, p, d, key, v), None)
    ensures Contents(Put(bs, index, p, d, key, v)) == Contents(bs)[key := v]
    ensures Occupied(Put(bs, index, p, d, key, v)) == Occupied(bs) + Vacant(bs, p)
  {
    PutLayout(bs, index, p, d, key, v);
    PutContents(bs, index, p, d, key, v);
  }

  /** After a displacement the loop of `map_set` can go on with the nearer free bucket. */
  lemma SettleStep(t: Map, key: Key, index: nat, p: nat, d: nat, sw: Swapped)
    requires Wf(t) && Layout(t.buckets, Some(p)) && index < t.size && NHD_LEN <= d < t.size
    requires p == Fwd(index, d, t.size) && index == Home(key, t.size) && key !in Contents(t.buckets)
    requires 1 <= sw.distance < NHD_LEN && sw.offset < sw.distance
    requires IsSet(t.buckets[Back(p, sw.distance, t.size)].hop, sw.offset)
    requires sw.buckets == Swap(t.buckets, p, sw.distance, sw.offset)
    ensures var g := sw.distance - sw.offset; var q := Back(p, g, t.size);
      && 1 <= g < d && Wf(t.(buckets := sw.buckets)) && Layout(sw.buckets, Some(q))
      && q == Fwd(index, d - g, t.size) && key !in Contents(sw.buckets)
      && Contents(sw.buckets) == Contents(t.buckets)
      && Occupied(sw.buckets) == Occupied(t.buckets) + Vacant(t.buckets, p) && Vacant(sw.buckets, q) == 0
  {
    SwapStep(t.buckets, p, sw.distance, sw.offset);
    Nearer(index, d, sw.distance - sw.offset, t.size);
  }

  /** An empty bucket may be taken as the hole. */
  lemma EmptyHole(bs: seq<Bucket>, p: nat)
    requires Layout(bs, None) && p < |bs| && bs[p].key.None?
    ensures Layout(bs, Some(p))
  {
    forall j: nat ensures Live(bs, Some(p), j) == Live(bs, None, j) {}
    assert Placed(bs, Some(p));
    assert Unique(bs, Some(p));
    forall i: nat, o: Offset | i < |bs| && IsSet(bs[i].hop, o) ensures Names(bs, Some(p), i, o) {
      assert Names(bs, None, i, o);
    }
  }

  // ---------------------------------------------------------------------------
  // map_set, map_grow, map_resize
  // ---------------------------------------------------------------------------

  /**
   * `map_set`: grow first when the load factor is reached, then insert.
   * On success the map holds `v` for `key` and is otherwise unchanged.
   * `None` is the C function returning 0.
   */
  function Set(m: Map, key: Key, v: Value): (r: Option<Map>)
    requires Inv(m)
    ensures r.Some? ==> Inv(r.value) && m.size <= r.value.size
    ensures r.Some? ==> Contents(r.value.buckets) == Contents(m.buckets)[key := v]
    decreases MAX_SIZE - m.size, 5
  {
    if Overloaded(m) then
      match Grow(m)
      case None => None
      case Some(g) =>
        ContentsSize(m.buckets);
        InvCount(g);
        Insert(g, key, v)
    else
      RoomBelowLoad(m);
      Insert(m, key, v)
  }

  /** A map below its capacity has an empty bucket. */
  lemma HasEmpty(m: Map)
    requires Inv(m) && m.count < m.size
    ensures exists j :: 0 <= j < m.size && m.buckets[j].key.None?
  {
    OccupiedBound(m.buckets);
  }

  /** A key that `map_internal_get` did not find may be put into the empty bucket the probe found. */
  lemma SettleReady(m: Map, key: Key, p: nat)
    requires Inv(m) && !Present(m.buckets, key) && p < m.size && m.buckets[p].key.None?
    ensures Layout(m.buckets, Some(p)) && key !in Contents(m.buckets)
  {
    ContentsOfInv(m);
    EmptyHole(m.buckets, p);
  }

  /** Writing the key into an empty bucket adds one to the count. */
  lemma WrittenInv(m: Map, bs: seq<Bucket>)
    requires Inv(m) && |bs| == m.size && Layout(bs, None) && Occupied(bs) == Occupied(m.buckets) + 1
    ensures Inv(Map(bs, m.count + 1, m.size, m.mask))
  {}

  /** `map_set` after the load check: overwrite a present key, grow on a full neighbourhood, or place. */
  function Insert(m: Map, key: Key, v: Value): (r: Option<Map>)
    requires Inv(m) && m.count < m.size
    ensures r.Some? ==> Inv(r.value) && m.size <= r.value.size
    ensures r.Some? ==> Contents(r.value.buckets) == Contents(m.buckets)[key := v]
    decreases MAX_SIZE - m.size, 4
  {
    var mk := CreateKey(key);
    HomeIndex(m, key);
    var index := HashIndex(mk.hash, m.mask);
    match InternalGet(m, mk)
    case Some(j) =>
      OverwriteEffect(m.buckets, j, key, v);
      Some(m.(buckets := Overwrite(m.buckets, j, key, v)))
    case None =>
      if IsFull(m.buckets[index].hop) then
        match Grow(m)
        case None => None
        case Some(g) => Set(g, key, v)
      else Place(m, key, v, index)
  }

  /**
   * `map_set` for a new key whose home neighbourhood has room: probe for the
   * first empty bucket, displace until it is near enough, and write; grow and
   * start over when no key can be displaced.
   */
  function Place(m: Map, key: Key, v: Value, index: nat): (r: Option<Map>)
    requires Inv(m) && m.count < m.size && index == Home(key, m.size) && !Present(m.buckets, key)
    ensures r.Some? ==> Inv(r.value) && m.size <= r.value.size
    ensures r.Some? ==> Contents(r.value.buckets) == Contents(m.buckets)[key := v]
    decreases MAX_SIZE - m.size, 3
  {
    HasEmpty(m);
    var pr := Probe(m, index, index, 0);
    SettleReady(m, key, pr.at);
    match Settle(m, key, v, index, pr.at, pr.distance)
    case Written(bs) =>
      WrittenInv(m, bs);
      Some(Map(bs, m.count + 1, m.size, m.mask))
    case Stuck(bs) =>
      match Grow(m.(buckets := bs))
      case None => None
      case Some(g) => Set(g, key, v)
  }

  /** `map_grow`: resize to `size | 1`, which rounds up to twice the size. */
  function Grow(t: Map): (r: Option<Map>)
    requires Wf(t)
    ensures r.Some? ==> Inv(r.value) && 2 * t.size <= r.value.size
    ensures r.Some? ==> Contents(r.value.buckets) == Contents(t.buckets)
    ensures t.size == MAX_SIZE ==> r.None?
    decreases MAX_SIZE - t.size, 2
  {
    GrowRequest(t);
    Resize(t, BitOr(t.size, 1))
  }

  /**
   * The request `size | 1` is `size + 1`; `next_pow2` rounds it to twice the
   * size, and wraps to 0 when the size is already 2^31.
   */
  lemma GrowRequest(t: Map)
    requires Wf(t)
    ensures BitOr(t.size, 1) == t.size + 1 && IsU32(BitOr(t.size, 1))
    ensures t.size < MAX_SIZE ==> NextPow2(BitOr(t.size, 1)) == 2 * t.size
    ensures t.size == MAX_SIZE ==> NextPow2(BitOr(t.size, 1)) == 0
  {
    WfExponent(t);
    var k := Exponent(t.size);
    Pow2Literals();
    OrOneOfPow2(k);
    NextPow2IsCeilPow2(t.size + 1);
    if t.size < MAX_SIZE {
      if k >= 31 {
        Pow2Le(31, k);
      }
      GrowRequestDoubles(k);
    }
  }

  /**
   * `map_resize`: a request no larger than the size leaves the map alone;
   * otherwise the size becomes `next_pow2(size)` and every occupied bucket of
   * the old array is set again, in order. A request that rounds past 2^31
   * makes `next_pow2` wrap to 0; that is reported as a failure.
   */
  function Resize(t: Map, req: nat): (r: Option<Map>)
    requires Wf(t) && IsU32(req)
    ensures req <= t.size ==> r == Some(t)
    ensures req > t.size && r.Some? ==> Inv(r.value) && NextPow2(req) <= r.value.size
    ensures req > t.size && NextPow2(req) == 0 ==> r.None?
    ensures req > t.size && r.Some? ==> Contents(r.value.buckets) == Contents(t.buckets)
    decreases MAX_SIZE - t.size, 1
  {
    if req <= t.size then Some(t)
    else
      var ns := NextPow2(req);
      if ns == 0 then None
      else
        ResizeTarget(req);
        StoreAllFromEmpty(t.buckets);
        Reinsert(Fresh(ns, CreateMask(ns)), t.buckets, 0, ns)
  }

  /**
   * When `next_pow2` does not wrap, the new size is a power of two no smaller
   * than the request and no larger than 2^31, and `map_create_mask` gives
   * `size - 1`.
   */
  lemma ResizeTarget(req: nat)
    requires IsU32(req) && NextPow2(req) != 0
    ensures IsPow2(NextPow2(req)) && req <= NextPow2(req) <= MAX_SIZE
    ensures IsU32(NextPow2(req)) && CreateMask(NextPow2(req)) == NextPow2(req) - 1
  {
    NextPow2IsCeilPow2(req);
    var ns := NextPow2(req);
    CeilPow2Bounds(req);
    CeilPow2Idempotent(req);
    var k := Exponent(ns);
    Pow2Literals();
    if k >= 32 {
      Pow2Le(32, k);
    }
    CreateMaskOfPow2(k);
  }

  /** The loop of `map_resize`: set every occupied bucket of `src` from index `i` on. */
  function Reinsert(acc: Map, src: seq<Bucket>, i: nat, floor: nat): (r: Option<Map>)
    requires Inv(acc) && floor <= acc.size && i <= |src|
    ensures r.Some? ==> Inv(r.value) && acc.size <= r.value.size
    ensures r.Some? ==> Contents(r.value.buckets) == StoreAll(Contents(acc.buckets), src[i..])
    decreases MAX_SIZE - floor, 6, |src| - i
  {
    if i == |src| then Some(acc)
    else
      assert src[i..][1..] == src[i + 1..];
      if src[i].key.None? then Reinsert(acc, src, i + 1, floor)
      else
        match Set(acc, src[i].key.value, src[i].value)
        case None => None
        case Some(a) => Reinsert(a, src, i + 1, floor)
  }

  /** Storing a whole table into an empty map gives its contents. */
  lemma StoreAllFromEmpty(bs: seq<Bucket>)
    ensures StoreAll(map[], bs[0..]) == Contents(bs)
  {
    assert bs[0..] == bs;
  }

  // ---------------------------------------------------------------------------
  // What a caller sees
  // ---------------------------------------------------------------------------

  /**
   * After a successful `map_set(key, v)`, `map_get(key)` returns `v` and every
   * other key reads as before; the count is the number of distinct keys.
   */
  lemma GetAfterSet(m: Map, key: Key, v: Value, other: Key)
    requires Inv(m) && Set(m, key, v).Some?
    ensures MapGet(Set(m, key, v).value, key) == Some(v)
    ensures other != key ==> MapGet(Set(m, key, v).value, other) == MapGet(m, other)
    ensures Set(m, key, v).value.count == |Contents(Set(m, key, v).value.buckets).Keys|
  {
    ReadsAfterUpdate(m, Set(m, key, v).value, key, v, other);
  }

  /** Reads through `map_get` follow the contents. */
  lemma ReadsAfterUpdate(m: Map, r: Map, key: Key, v: Value, other: Key)
    requires Inv(m) && Inv(r) && Contents(r.buckets) == Contents(m.buckets)[key := v]
    ensures MapGet(r, key) == Some(v)
    ensures other != key ==> MapGet(r, other) == MapGet(m, other)
    ensures r.count == |Contents(r.buckets).Keys|
  {
    InvCount(r);
    MapGetReads(r, key);
    MapGetReads(r, other);
    MapGetReads(m, other);
  }

  /** A set offset of a bucket names a live bucket, so an empty bucket's offset 0 is clear. */
  lemma NamedLive(bs: seq<Bucket>, i: nat, o: Offset)
    requires Layout(bs, None) && i < |bs|
    ensures IsSet(bs[i].hop, o) ==> bs[Fwd(i, o, |bs|)].key.Some?
  {
    if IsSet(bs[i].hop, o) {
      assert Names(bs, None, i, o);
    }
  }

  /** Under the invariant an empty bucket's neighbourhood is never full. */
  lemma EmptyNotFull(m: Map, h: nat)
    requires Inv(m) && h < m.size && m.buckets[h].key.None?
    ensures !IsFull(m.buckets[h].hop)
  {
    IsFullIff(m.buckets[h].hop);
    NamedLive(m.buckets, h, 0);
  }

  /**
   * `map_set` of a new key whose home bucket is empty, below the load factor,
   * succeeds at once: the probe stops at the home, and the key is written
   * there with offset 0 set in the home's bitmap.
   */
  lemma SetIntoEmptyHome(m: Map, key: Key, v: Value)
    requires Inv(m) && !Overloaded(m) && key !in Contents(m.buckets)
    requires m.buckets[Home(key, m.size)].key.None?
    ensures var h := Home(key, m.size);
      Set(m, key, v) == Some(Map(Put(m.buckets, h, h, 0, key, v), m.count + 1, m.size, m.mask))
  {
    RoomBelowLoad(m);
    InsertIntoEmptyHome(m, key, v);
  }

  /** The step of `SetIntoEmptyHome` after the load check: not present, not full, so placed. */
  lemma InsertIntoEmptyHome(m: Map, key: Key, v: Value)
    requires Inv(m) && m.count < m.size && key !in Contents(m.buckets)
    requires m.buckets[Home(key, m.size)].key.None?
    ensures var h := Home(key, m.size);
      Insert(m, key, v) == Some(Map(Put(m.buckets, h, h, 0, key, v), m.count + 1, m.size, m.mask))
  {
    var h := Home(key, m.size);
    ContentsOfInv(m);
    HomeIndex(m, key);
    EmptyNotFull(m, h);
    assert InternalGet(m, CreateKey(key)).None?;
    PlaceAtHome(m, key, v);
  }

  /** Placing into an empty home: the probe stops at distance 0 and the loop writes at once. */
  lemma PlaceAtHome(m: Map, key: Key, v: Value)
    requires Inv(m) && m.count < m.size && key !in Contents(m.buckets) && !Present(m.buckets, key)
    requires m.buckets[Home(key, m.size)].key.None?
    ensures var h := Home(key, m.size);
      Place(m, key, v, h) == Some(Map(Put(m.buckets, h, h, 0, key, v), m.count + 1, m.size, m.mask))
  {
    var h := Home(key, m.size);
    HasEmpty(m);
    assert Probe(m, h, h, 0) == Probed(h, 0);
    SettleReady(m, key, h);
    assert Settle(m, key, v, h, h, 0) == Written(Put(m.buckets, h, h, 0, key, v));
  }

  /** `map_set` on a new map succeeds and stores exactly the one pair. */
  lemma SetOfNew(key: Key, v: Value)
    ensures Set(New(), key, v).Some?
    ensures Contents(Set(New(), key, v).value.buckets) == map[key := v]
  {
    SetIntoEmptyHome(New(), key, v);
  }

  /**
   * `map_set` of a key that is present, below the load factor, succeeds and
   * only replaces the value in the bucket holding the key: the bitmaps, the
   * other buckets, the size and the count stay as they were.
   */
  lemma SetOverwrite(m: Map, j: nat, key: Key, v: Value)
    requires Inv(m) && !Overloaded(m) && j < m.size && m.buckets[j].key == Some(key)
    ensures Set(m, key, v) == Some(m.(buckets := Overwrite(m.buckets, j, key, v)))
  {
    RoomBelowLoad(m);
    var found := InternalGet(m, CreateKey(key));
    assert Live(m.buckets, None, j);
    assert found == Some(j) by {
      assert found.Some?;
      assert Live(m.buckets, None, found.value);
    }
  }

  /** Reaching the load factor makes a successful `map_set` at least double the map. */
  lemma SetGrowsWhenOverloaded(m: Map, key: Key, v: Value)
    requires Inv(m) && Overloaded(m) && Set(m, key, v).Some?
    ensures 2 * m.size <= Set(m, key, v).value.size
  {
    var r := Set(m, key, v);
  }

  /** A new map reads every key as absent. */
  lemma GetOfNew(k: Key)
    ensures MapGet(New(), k) == None
  {
    var m := New();
    assert k !in Contents(m.buckets);
  }
}

=== FILE: neighbourhood.dfy ===
/**
 * The neighbourhood bitmap `hop_info` of a bucket.
 *
 * Eight bits, read from the most significant end: offset 0 (the bucket
 * itself) is bit 7 and offset 7 is bit 0. A set offset `n` of the bucket at
 * index `h` says that the bucket `n` places after `h` holds a key whose home
 * is `h`.
 */
module Neighbourhood {
  import opened Wrappers

  /** `MAP_NHD_LEN`: the length of a neighbourhood. */
  const NHD_LEN: nat := 8

  type Hop = bv8

  /** An offset inside a neighbourhood. */
  type Offset = n: nat | n < NHD_LEN

  /** `MAP_NHD_MASK_ALL`: all eight hop bits. */
  const MASK_ALL: bv8 := 0xFF

  /**
   * `map_nhd_mask(n)`: the bit of offset `n`, counted from the left, that is
   * `1 << (7 - n)`; written out per offset (`NhdMaskIsShift` proves the two
   * agree) so that the solver never converts the shift amount to a bit-vector.
   */
  function NhdMask(n: Offset): bv8 {
    match n
    case 0 => 0x80
    case 1 => 0x40
    case 2 => 0x20
    case 3 => 0x10
    case 4 => 0x08
    case 5 => 0x04
    case 6 => 0x02
    case 7 => 0x01
  }

  /** `MAP_NHD_MASK_SELF`: the bit of the bucket itself. */
  const MASK_SELF: bv8 := NhdMask(0)

  /** `map_nbh_isset(hop_info, n)` */
  predicate IsSet(hop: Hop, n: Offset) {
    hop & NhdMask(n) != 0
  }

  /** `map_nbh_full(hop_info)`: no bit of the complement survives the mask. */
  predicate IsFull(hop: Hop) {
    (!hop) & MASK_ALL == 0
  }

  /** `hop_info |= map_nhd_mask(n)` */
  function SetBit(hop: Hop, n: Offset): Hop {
    hop | NhdMask(n)
  }

  /** `hop_info &= ~map_nhd_mask(n)` */
  function ClearBit(hop: Hop, n: Offset): Hop {
    hop & !NhdMask(n)
  }

  /** The set of offsets a bitmap names. */
  function Offsets(hop: Hop): (s: set<Offset>)
    ensures forall n: Offset :: n in s <==> IsSet(hop, n)
  {
    set n: Offset | IsSet(hop, n)
  }

  /** No offset below `k` is set. */
  predicate NoneBelow(hop: Hop, k: nat) {
    forall j: Offset :: j < k ==> !IsSet(hop, j)
  }

  /**
   * The inner loop of `map_internal_swap`: starting from `MAP_NHD_MASK_SELF`
   * and shifting the mask right once per step, the first offset `i < limit`
   * whose bit is set, if any.
   */
  function FirstSet(hop: Hop, limit: nat): (r: Option<Offset>)
    requires limit <= NHD_LEN
    ensures r.Some? ==> r.value < limit && IsSet(hop, r.value) && NoneBelow(hop, r.value)
    ensures r.None? ==> NoneBelow(hop, limit)
  {
    FirstSetFrom(hop, limit, 0, MASK_SELF)
  }

  function FirstSetFrom(hop: Hop, limit: nat, i: nat, mask: bv8): (r: Option<Offset>)
    requires limit <= NHD_LEN && i <= limit
    requires i < NHD_LEN ==> mask == NhdMask(i)
    requires NoneBelow(hop, i)
    ensures r.Some? ==> i <= r.value < limit && IsSet(hop, r.value) && NoneBelow(hop, r.value)
    ensures r.None? ==> NoneBelow(hop, limit)
    decreases limit - i
  {
    if i >= limit then None
    else if hop & mask != 0 then
      assert IsSet(hop, i);
      Some(i)
    else
      NoneBelowStep(hop, i, mask);
      FirstSetFrom(hop, limit, i + 1, mask >> 1)
  }

  lemma NoneBelowStep(hop: Hop, i: nat, mask: bv8)
    requires i < NHD_LEN && mask == NhdMask(i) && hop & mask == 0
    requires NoneBelow(hop, i)
    ensures NoneBelow(hop, i + 1)
    ensures i + 1 < NHD_LEN ==> mask >> 1 == NhdMask(i + 1)
  {
    ShiftedMask(i);
  }

  /** Shifting the mask of offset `i` right by one gives the mask of offset `i + 1`. */
  lemma ShiftedMask(i: nat)
    requires i < NHD_LEN
    ensures i + 1 < NHD_LEN ==> NhdMask(i) >> 1 == NhdMask(i + 1)
  {}

  lemma NhdMaskIsShift(n: Offset)
    ensures NhdMask(n) == (1 as bv8) << (7 - n)
  {}

  /** `map_nhd_mask(n)` is one bit inside the low eight: 0x80 for offset 0, 0x01 for offset 7. */
  lemma NhdMaskSingleBit(n: Offset)
    ensures NhdMask(n) != 0 && NhdMask(n) & (NhdMask(n) - 1) == 0
    ensures NhdMask(0) == 0x80 && NhdMask(7) == 0x01
  {}

  /** Distinct offsets have disjoint masks. */
  lemma NhdMaskDistinct(m: Offset, n: Offset)
    requires m != n
    ensures NhdMask(m) & NhdMask(n) == 0
  {}

  /** Or-ing the mask of `n` sets offset `n` and leaves the other seven as they were. */
  lemma SetBitEffect(hop: Hop, n: Offset, m: Offset)
    ensures IsSet(SetBit(hop, n), m) == (m == n || IsSet(hop, m))
  {}

  /** And-not-ing the mask of `n` clears offset `n` and leaves the other seven as they were. */
  lemma ClearBitEffect(hop: Hop, n: Offset, m: Offset)
    ensures IsSet(ClearBit(hop, n), m) == (m != n && IsSet(hop, m))
  {}

  /** A bitmap is determined by its eight offsets. */
  lemma HopExtensional(a: Hop, b: Hop)
    requires forall n: Offset :: IsSet(a, n) == IsSet(b, n)
    ensures a == b
  {
    assert IsSet(a, 0) == IsSet(b, 0) && IsSet(a, 1) == IsSet(b, 1);
    assert IsSet(a, 2) == IsSet(b, 2) && IsSet(a, 3) == IsSet(b, 3);
    assert IsSet(a, 4) == IsSet(b, 4) && IsSet(a, 5) == IsSet(b, 5);
    assert IsSet(a, 6) == IsSet(b, 6) && IsSet(a, 7) == IsSet(b, 7);
  }

  /** `map_nbh_full` holds iff all eight offsets are set, i.e. the bitmap is 0xFF. */
  lemma IsFullIff(hop: Hop)
    ensures IsFull(hop) <==> hop == 0xFF
    ensures IsFull(hop) <==> forall n: Offset :: IsSet(hop, n)
    ensures IsFull(hop) <==> |Offsets(hop)| == NHD_LEN
  {
    FullBits(hop);
    AllOffsetsCard(hop);
  }

  /** The bitmap is 0xFF exactly when each of the eight offsets is set. */
  lemma FullBits(hop: Hop)
    ensures IsFull(hop) <==> hop == 0xFF
    ensures IsFull(hop) <==> forall n: Offset :: IsSet(hop, n)
  {
    if forall n: Offset :: IsSet(hop, n) {
      assert IsSet(hop, 0) && IsSet(hop, 1) && IsSet(hop, 2) && IsSet(hop, 3);
      assert IsSet(hop, 4) && IsSet(hop, 5) && IsSet(hop, 6) && IsSet(hop, 7);
    }
  }

  /** All eight offsets are set exactly when the bitmap names eight offsets. */
  lemma AllOffsetsCard(hop: Hop)
    ensures (forall n: Offset :: IsSet(hop, n)) <==> |Offsets(hop)| == NHD_LEN
  {
    AllOffsetsSize();
    if forall n: Offset :: IsSet(hop, n) {
      assert Offsets(hop) == ALL_OFFSETS;
    } else {
      var n: Offset :| !IsSet(hop, n);
      SubsetCard(Offsets(hop), ALL_OFFSETS - {n});
    }
  }

  /** Every offset of a neighbourhood. */
  const ALL_OFFSETS: set<Offset> := {0, 1, 2, 3, 4, 5, 6, 7}

  /** There are eight offsets, and seven once any one is taken away. */
  lemma AllOffsetsSize()
    ensures |ALL_OFFSETS| == NHD_LEN
    ensures forall n: Offset :: |ALL_OFFSETS - {n}| == NHD_LEN - 1
  {
    forall n: Offset ensures |ALL_OFFSETS - {n}| == NHD_LEN - 1 {
      assert n in ALL_OFFSETS;
    }
  }

  /** A subset is no larger than its superset. */
  lemma {:induction false} SubsetCard<T>(a: set<T>, b: set<T>)
    requires a <= b
    ensures |a| <= |b|
    decreases |a|
  {
    if a != {} {
      var x :| x in a;
      SubsetCard(a - {x}, b - {x});
    }
  }

  /** Setting offset `n` adds exactly `n` to the offsets the bitmap names. */
  lemma OffsetsOfSetBit(hop: Hop, n: Offset)
    ensures Offsets(SetBit(hop, n)) == Offsets(hop) + {n}
  {
    forall m: Offset ensures m in Offsets(SetBit(hop, n)) <==> m in Offsets(hop) + {n} {
      SetBitEffect(hop, n, m);
    }
  }

  /** Clearing offset `n` removes exactly `n` from the offsets the bitmap names. */
  lemma OffsetsOfClearBit(hop: Hop, n: Offset)
    ensures Offsets(ClearBit(hop, n)) == Offsets(hop) - {n}
  {
    forall m: Offset ensures m in Offsets(ClearBit(hop, n)) <==> m in Offsets(hop) - {n} {
      ClearBitEffect(hop, n, m);
    }
  }

  /** Two bitmaps naming the same offsets are equal, so `Offsets` loses nothing. */
  lemma OffsetsDetermine(a: Hop, b: Hop)
    requires Offsets(a) == Offsets(b)
    ensures a == b
  {
    forall n: Offset ensures IsSet(a, n) == IsSet(b, n) {
      assert n in Offsets(a) <==> n in Offsets(b);
    }
    HopExtensional(a, b);
  }
}

=== FILE: table.dfy ===
/**
 * The bucket array of the hopscotch map, its invariant, and lookup.
 *
 * A bucket holds a key (absent when the pointer is NULL), a value and the
 * neighbourhood bitmap of the keys whose home it is. The invariant
 * `Layout(bs, hole)` says where every key lives: within eight buckets after
 * its home, named by a bit of the home's bitmap, once. While a key is being
 * displaced towards its home one bucket, the hole, may hold a stale copy of
 * a live bucket; the layout does not count it.
 *
 * What a table means is `Contents`: the key/value pairs of its occupied
 * buckets, read from the first bucket to the last, a later bucket winning
 * over an earlier one with the same key. That is also exactly what
 * re-inserting every bucket in order, as `map_resize` does, produces.
 */
module Table {
  import opened Wrappers
  import opened Uint32
  import opened Fnv
  import opened Neighbourhood
  import opened Addressing

  /** `value_t` is a C `int`. */
  type Value = v: int | -0x8000_0000 <= v < 0x8000_0000

  /** `struct map_bucket`. */
  datatype Bucket = Bucket(key: Option<Key>, value: Value, hop: Hop)

  /** A bucket as `calloc` leaves it. */
  const EMPTY: Bucket := Bucket(None, 0, 0)

  /**
   * `struct map`. The load factor is the constant 0.98 for every map and is
   * not stored.
   */
  datatype Map = Map(buckets: seq<Bucket>, count: nat, size: nat, mask: nat)

  /** `MAP_INIT_SIZE` */
  const INIT_SIZE: nat := 16

  /** The largest bucket count that a `uint32_t` size can double to. */
  const MAX_SIZE: nat := 0x8000_0000

  // ---------------------------------------------------------------------------
  // Shape of a map
  // ---------------------------------------------------------------------------

  /** The header agrees with the array: a power-of-two size and its mask. */
  predicate Wf(m: Map) {
    IsPow2(m.size) && INIT_SIZE <= m.size <= MAX_SIZE
    && |m.buckets| == m.size && m.mask == m.size - 1
  }

  /** The exponent of a well-formed size, within what a C shift allows. */
  lemma WfExponent(m: Map)
    requires Wf(m)
    ensures Exponent(m.size) <= 31 && Pow2(Exponent(m.size)) == m.size
    ensures IsU32(m.size) && m.mask == Pow2(Exponent(m.size)) - 1
  {
    var k := Exponent(m.size);
    Pow2Literals();
    if k > 31 {
      Pow2Monotone(31, k);
    }
  }

  /** The bucket a key hashes to in a table of `n` buckets. */
  function Home(k: Key, n: nat): (h: nat)
    requires n > 0
    ensures h < n
  {
    Fnv1a(k) % n
  }

  /** The number of buckets with a key. */
  function Occupied(bs: seq<Bucket>): nat
    decreases |bs|
  {
    if |bs| == 0 then 0
    else Occupied(bs[..|bs| - 1]) + (if bs[|bs| - 1].key.Some? then 1 else 0)
  }

  /** 1 if bucket `p` is empty: what writing a key there adds to `Occupied`. */
  function Vacant(bs: seq<Bucket>, p: nat): nat
    requires p < |bs|
  {
    if bs[p].key.None? then 1 else 0
  }

  // ---------------------------------------------------------------------------
  // Meaning of a table
  // ---------------------------------------------------------------------------

  /** The effect of storing one bucket's pair into a map. */
  function Store(c: map<Key, Value>, b: Bucket): map<Key, Value> {
    if b.key.Some? then c[b.key.value := b.value] else c
  }

  /** The pairs of `bs` stored into `c`, first bucket first. */
  function StoreAll(c: map<Key, Value>, bs: seq<Bucket>): map<Key, Value>
    decreases |bs|
  {
    if |bs| == 0 then c else StoreAll(Store(c, bs[0]), bs[1..])
  }

  /** What a table maps each key to. */
  function Contents(bs: seq<Bucket>): map<Key, Value> {
    StoreAll(map[], bs)
  }

  /** Some bucket holds `k`. */
  ghost predicate Present(bs: seq<Bucket>, k: Key) {
    exists j :: 0 <= j < |bs| && bs[j].key == Some(k)
  }

  /** Buckets with the same key have the same value. */
  ghost predicate KeyFunctional(bs: seq<Bucket>) {
    forall i, j :: 0 <= i < |bs| && 0 <= j < |bs| && bs[i].key.Some? && bs[i].key == bs[j].key
      ==> bs[i].value == bs[j].value
  }

  // ---------------------------------------------------------------------------
  // The layout invariant
  // ---------------------------------------------------------------------------

  /** Bucket `j` holds a key that counts: it is occupied and not the hole. */
  ghost predicate Live(bs: seq<Bucket>, hole: Option<nat>, j: nat) {
    j < |bs| && bs[j].key.Some? && hole != Some(j)
  }

  /** The occupied bucket `j` lies in its home's neighbourhood, and the home's bitmap names it. */
  ghost predicate InNeighbourhood(bs: seq<Bucket>, j: nat)
    requires j < |bs| && bs[j].key.Some?
  {
    var h := Home(bs[j].key.value, |bs|);
    var d := Dist(h, j, |bs|);
    d < NHD_LEN && IsSet(bs[h].hop, d)
  }

  /** The set offset `o` of bucket `i` names a live bucket whose home is `i`. */
  ghost predicate Names(bs: seq<Bucket>, hole: Option<nat>, i: nat, o: Offset)
    requires NHD_LEN <= |bs| && i < |bs|
  {
    var j := Fwd(i, o, |bs|);
    Live(bs, hole, j) && Home(bs[j].key.value, |bs|) == i
  }

  ghost predicate Placed(bs: seq<Bucket>, hole: Option<nat>) {
    forall j: nat :: Live(bs, hole, j) ==> InNeighbourhood(bs, j)
  }

  ghost predicate Pointed(bs: seq<Bucket>, hole: Option<nat>)
    requires NHD_LEN <= |bs|
  {
    forall i: nat, o: Offset :: i < |bs| && IsSet(bs[i].hop, o) ==> Names(bs, hole, i, o)
  }

  ghost predicate Unique(bs: seq<Bucket>, hole: Option<nat>) {
    forall i: nat, j: nat :: Live(bs, hole, i) && Live(bs, hole, j) && bs[i].key == bs[j].key ==> i == j
  }

  /** The hole is empty or a copy of a live bucket. */
  ghost predicate HoleCopy(bs: seq<Bucket>, hole: Option<nat>) {
    hole.Some? ==>
      hole.value < |bs|
      && (bs[hole.value].key.Some? ==>
            exists j: nat :: Live(bs, hole, j) && bs[j].key == bs[hole.value].key && bs[j].value == bs[hole.value].value)
  }

  ghost predicate Layout(bs: seq<Bucket>, hole: Option<nat>) {
    NHD_LEN <= |bs| && Placed(bs, hole) && Pointed(bs, hole) && Unique(bs, hole) && HoleCopy(bs, hole)
  }

  /** The invariant of a map between operations. */
  ghost predicate Inv(m: Map) {
    Wf(m) && Layout(m.buckets, None) && m.count == Occupied(m.buckets)
  }

  // ---------------------------------------------------------------------------
  // Facts about Occupied and Contents
  // ---------------------------------------------------------------------------

  lemma {:induction false} OccupiedBound(bs: seq<Bucket>)
    ensures Occupied(bs) <= |bs|
    ensures Occupied(bs) < |bs| ==> exists j :: 0 <= j < |bs| && bs[j].key.None?
    decreases |bs|
  {
    if |bs| > 0 {
      var init := bs[..|bs| - 1];
      OccupiedBound(init);
      if Occupied(init) < |init| {
        var j :| 0 <= j < |init| && init[j].key.None?;
        assert bs[j] == init[j];
      }
    }
  }

  /** Replacing one bucket changes the count by the change in that bucket. */
  lemma {:induction false} OccupiedUpdate(bs: seq<Bucket>, j: nat, b: Bucket)
    requires j < |bs|
    ensures Occupied(bs[j := b]) + (if bs[j].key.Some? then 1 else 0)
         == Occupied(bs) + (if b.key.Some? then 1 else 0)
    decreases |bs|
  {
    var last := |bs| - 1;
    if j < last {
      assert bs[j := b][..last] == bs[..last][j := b];
      OccupiedUpdate(bs[..last], j, b);
    } else {
      assert bs[j := b][..last] == bs[..last];
    }
  }

  /** A table of empty buckets has no occupied bucket. */
  lemma {:induction false} OccupiedEmpty(bs: seq<Bucket>)
    requires forall j :: 0 <= j < |bs| ==> bs[j].key.None?
    ensures Occupied(bs) == 0
    decreases |bs|
  {
    if |bs| > 0 {
      OccupiedEmpty(bs[..|bs| - 1]);
    }
  }

  /** Storing empty buckets changes nothing. */
  lemma {:induction false} StoreAllEmpty(c: map<Key, Value>, bs: seq<Bucket>)
    requires forall j :: 0 <= j < |bs| ==> bs[j].key.None?
    ensures StoreAll(c, bs) == c
    decreases |bs|
  {
    if |bs| > 0 {
      StoreAllEmpty(c, bs[1..]);
    }
  }

  /** A key is present in a non-empty sequence iff the first bucket or the rest holds it. */
  lemma PresentSplit(bs: seq<Bucket>, k: Key)
    requires |bs| > 0
    ensures Present(bs, k) <==> bs[0].key == Some(k) || Present(bs[1..], k)
  {
    if Present(bs, k) {
      var j :| 0 <= j < |bs| && bs[j].key == Some(k);
      if j > 0 {
        assert bs[1..][j - 1] == bs[j];
      }
    }
    if Present(bs[1..], k) {
      var j :| 0 <= j < |bs[1..]| && bs[1..][j].key == Some(k);
      assert bs[j + 1] == bs[1..][j];
    }
  }

  /**
   * In a key-functional sequence, storing all pairs into `c` gives a map whose
   * keys are those of `c` and of the buckets, and whose value for a key held
   * by a bucket is that bucket's value.
   */
  lemma {:induction false} StoreAllChar(c: map<Key, Value>, bs: seq<Bucket>)
    requires KeyFunctional(bs)
    ensures forall k :: k in StoreAll(c, bs) <==> k in c || Present(bs, k)
    ensures forall j :: 0 <= j < |bs| && bs[j].key.Some? ==>
      bs[j].key.value in StoreAll(c, bs) && StoreAll(c, bs)[bs[j].key.value] == bs[j].value
    ensures forall k :: k in c && !Present(bs, k) ==> StoreAll(c, bs)[k] == c[k]
    decreases |bs|
  {
    if |bs| > 0 {
      var rest := bs[1..];
      var c1 := Store(c, bs[0]);
      assert KeyFunctional(rest) by {
        forall i, j | 0 <= i < |rest| && 0 <= j < |rest| && rest[i].key.Some? && rest[i].key == rest[j].key
          ensures rest[i].value == rest[j].value
        {
          assert rest[i] == bs[i + 1] && rest[j] == bs[j + 1];
        }
      }
      StoreAllChar(c1, rest);
      var r := StoreAll(c, bs);
      assert r == StoreAll(c1, rest);
      forall k ensures k in r <==> k in c || Present(bs, k) {
        PresentSplit(bs, k);
      }
      forall j | 0 <= j < |bs| && bs[j].key.Some?
        ensures bs[j].key.value in r && r[bs[j].key.value] == bs[j].value
      {
        var k := bs[j].key.value;
        PresentSplit(bs, k);
        if j > 0 {
          assert rest[j - 1] == bs[j];
        } else if Present(rest, k) {
          var i :| 0 <= i < |rest| && rest[i].key == Some(k);
          assert bs[i + 1] == rest[i];
        }
      }
      forall k | k in c && !Present(bs, k) ensures r[k] == c[k] {
        PresentSplit(bs, k);
      }
    } else {
      forall k ensures !Present(bs, k) {}
    }
  }

  /** The contents of a key-functional table: its keys, each with the value of any bucket holding it. */
  lemma ContentsChar(bs: seq<Bucket>)
    requires KeyFunctional(bs)
    ensures forall k :: k in Contents(bs) <==> Present(bs, k)
    ensures forall j :: 0 <= j < |bs| && bs[j].key.Some? ==>
      bs[j].key.value in Contents(bs) && Contents(bs)[bs[j].key.value] == bs[j].value
  {
    StoreAllChar(map[], bs);
  }

  /** Two tables whose buckets hold the same keys and values, whatever their bitmaps. */
  predicate SamePairs(a: seq<Bucket>, b: seq<Bucket>) {
    |a| == |b| && forall i :: 0 <= i < |a| ==> a[i].key == b[i].key && a[i].value == b[i].value
  }

  lemma {:induction false} SamePairsStore(c: map<Key, Value>, a: seq<Bucket>, b: seq<Bucket>)
    requires SamePairs(a, b)
    ensures StoreAll(c, a) == StoreAll(c, b)
    decreases |a|
  {
    if |a| > 0 {
      assert Store(c, a[0]) == Store(c, b[0]);
      SamePairsStore(Store(c, a[0]), a[1..], b[1..]);
    }
  }

  lemma {:induction false} SamePairsOccupied(a: seq<Bucket>, b: seq<Bucket>)
    requires SamePairs(a, b)
    ensures Occupied(a) == Occupied(b)
    decreases |a|
  {
    if |a| > 0 {
      SamePairsOccupied(a[..|a| - 1], b[..|b| - 1]);
    }
  }

  /** The bitmaps do not matter to what a table holds. */
  lemma SamePairsAgree(a: seq<Bucket>, b: seq<Bucket>)
    requires SamePairs(a, b)
    ensures Contents(a) == Contents(b) && Occupied(a) == Occupied(b)
    ensures KeyFunctional(a) ==> KeyFunctional(b)
  {
    SamePairsStore(map[], a, b);
    SamePairsOccupied(a, b);
  }

  /**
   * Writing the pair of `b` into bucket `j` of a key-functional table adds
   * that pair to the contents, provided the key that `j` held, if any, is
   * the same key or survives in another bucket.
   */
  lemma UpdateContents(bs: seq<Bucket>, j: nat, b: Bucket)
    requires j < |bs| && b.key.Some?
    requires KeyFunctional(bs) && KeyFunctional(bs[j := b])
    requires bs[j].key.Some? && bs[j].key != b.key ==>
      exists i :: 0 <= i < |bs| && i != j && bs[i].key == bs[j].key
    ensures Contents(bs[j := b]) == Contents(bs)[b.key.value := b.value]
  {
    var bs' := bs[j := b];
    var want := Contents(bs)[b.key.value := b.value];
    ContentsChar(bs);
    ContentsChar(bs');
    forall k | k != b.key.value ensures Present(bs', k) <==> Present(bs, k) {
      if Present(bs, k) {
        var i :| 0 <= i < |bs| && bs[i].key == Some(k);
        if i == j {
          var i' :| 0 <= i' < |bs| && i' != j && bs[i'].key == bs[j].key;
          assert bs'[i'].key == Some(k);
        } else {
          assert bs'[i].key == Some(k);
        }
      }
      if Present(bs', k) {
        var i :| 0 <= i < |bs'| && bs'[i].key == Some(k);
        assert bs[i].key == Some(k);
      }
    }
    assert bs'[j].key == b.key;
    forall k | k in want ensures k in Contents(bs') && Contents(bs')[k] == want[k] {
      if k != b.key.value {
        var i :| 0 <= i < |bs'| && bs'[i].key == Some(k);
        assert bs[i] == bs'[i];
      }
    }
  }

  /** `Occupied`, counted from the front. */
  lemma {:induction false} OccupiedFront(bs: seq<Bucket>)
    requires |bs| > 0
    ensures Occupied(bs) == (if bs[0].key.Some? then 1 else 0) + Occupied(bs[1..])
    decreases |bs|
  {
    if |bs| > 1 {
      var init := bs[..|bs| - 1];
      OccupiedFront(init);
      assert init[1..] == bs[1..][..|bs| - 2];
    } else {
      assert bs[1..] == [];
    }
  }

  /**
   * No two occupied buckets hold the same key: `Unique` of a table with no
   * hole (`UniqueIsDistinct`), stated on its own so that it carries over to
   * every suffix of the table in `StoreAllSize`.
   */
  ghost predicate DistinctKeys(bs: seq<Bucket>) {
    forall i, j :: 0 <= i < |bs| && 0 <= j < |bs| && bs[i].key.Some? && bs[i].key == bs[j].key ==> i == j
  }

  /** Storing adds at most one key per occupied bucket, and exactly one when the keys are new and distinct. */
  lemma {:induction false} StoreAllSize(c: map<Key, Value>, bs: seq<Bucket>)
    ensures |StoreAll(c, bs).Keys| <= |c.Keys| + Occupied(bs)
    ensures DistinctKeys(bs) && (forall j :: 0 <= j < |bs| && bs[j].key.Some? ==> bs[j].key.value !in c)
      ==> |StoreAll(c, bs).Keys| == |c.Keys| + Occupied(bs)
    decreases |bs|
  {
    if |bs| > 0 {
      var c1 := Store(c, bs[0]);
      var rest := bs[1..];
      OccupiedFront(bs);
      StoreAllSize(c1, rest);
      if bs[0].key.Some? {
        var k := bs[0].key.value;
        if k in c {
          assert c1.Keys == c.Keys;
        } else {
          assert c1.Keys == c.Keys + {k};
        }
      }
      if DistinctKeys(bs) && (forall j :: 0 <= j < |bs| && bs[j].key.Some? ==> bs[j].key.value !in c) {
        assert DistinctKeys(rest) by {
          forall i, j | 0 <= i < |rest| && 0 <= j < |rest| && rest[i].key.Some? && rest[i].key == rest[j].key
            ensures i == j
          {
            assert bs[i + 1] == rest[i] && bs[j + 1] == rest[j];
          }
        }
        forall j | 0 <= j < |rest| && rest[j].key.Some? ensures rest[j].key.value !in c1 {
          assert rest[j] == bs[j + 1];
        }
      }
    }
  }

  /** A table holds no more keys than occupied buckets. */
  lemma ContentsSize(bs: seq<Bucket>)
    ensures |Contents(bs).Keys| <= Occupied(bs) <= |bs|
  {
    StoreAllSize(map[], bs);
    OccupiedBound(bs);
  }

  /** Without a hole, `Unique` says exactly that no two occupied buckets share a key. */
  lemma UniqueIsDistinct(bs: seq<Bucket>)
    ensures Unique(bs, None) <==> DistinctKeys(bs)
  {
    if Unique(bs, None) {
      forall i, j | 0 <= i < |bs| && 0 <= j < |bs| && bs[i].key.Some? && bs[i].key == bs[j].key
        ensures i == j
      {
        assert Live(bs, None, i) && Live(bs, None, j);
      }
    }
  }

  /** Under the invariant, `count` is the number of keys the map holds. */
  lemma InvCount(m: Map)
    requires Inv(m)
    ensures m.count == |Contents(m.buckets).Keys|
  {
    var bs := m.buckets;
    UniqueIsDistinct(bs);
    StoreAllSize(map[], bs);
  }

  /** A table under the layout invariant is key-functional, its hole included. */
  lemma LayoutKeyFunctional(bs: seq<Bucket>, hole: Option<nat>)
    requires Layout(bs, hole)
    ensures KeyFunctional(bs)
  {
    forall i, j | 0 <= i < |bs| && 0 <= j < |bs| && bs[i].key.Some? && bs[i].key == bs[j].key
      ensures bs[i].value == bs[j].value
    {
      var i' := LiveCopy(bs, hole, i);
      var j' := LiveCopy(bs, hole, j);
    }
  }

  /** The live bucket an occupied bucket stands for: itself, or for the hole the bucket it copies. */
  lemma LiveCopy(bs: seq<Bucket>, hole: Option<nat>, i: nat) returns (j: nat)
    requires Layout(bs, hole) && i < |bs| && bs[i].key.Some?
    ensures Live(bs, hole, j) && bs[j].key == bs[i].key && bs[j].value == bs[i].value
    ensures forall l: nat :: Live(bs, hole, l) && bs[l].key == bs[i].key ==> l == j
  {
    if hole == Some(i) {
      j :| Live(bs, hole, j) && bs[j].key == bs[i].key && bs[j].value == bs[i].value;
    } else {
      j := i;
    }
  }

  // ---------------------------------------------------------------------------
  // map_new
  // ---------------------------------------------------------------------------

  /** `map_new`: sixteen empty buckets. Allocation failure is not modelled. */
  function New(): (r: Map)
    ensures Inv(r) && r.size == INIT_SIZE && r.count == 0
    ensures Contents(r.buckets) == map[]
  {
    Pow2Literals();
    CreateMaskOfPow2(4);
    Pow2IsPow2(4);
    var bs := seq(INIT_SIZE, _ => EMPTY);
    OccupiedEmpty(bs);
    StoreAllEmpty(map[], bs);
    Map(bs, 0, INIT_SIZE, CreateMask(INIT_SIZE))
  }

  /** A table of `n` empty buckets with the given size and mask, as `map_resize` allocates it. */
  function Fresh(n: nat, mask: nat): (r: Map)
    requires IsPow2(n) && INIT_SIZE <= n <= MAX_SIZE && mask == n - 1
    ensures Inv(r) && r.size == n && r.count == 0
    ensures Contents(r.buckets) == map[]
  {
    var bs := seq(n, _ => EMPTY);
    OccupiedEmpty(bs);
    StoreAllEmpty(map[], bs);
    Map(bs, 0, n, mask)
  }

  // ---------------------------------------------------------------------------
  // map_internal_get and map_get
  // ---------------------------------------------------------------------------

  /** No set offset of the home's bitmap in `o..d` names a bucket holding the key. */
  predicate MissedBefore(m: Map, key: Key, index: nat, o: nat, d: nat)
    requires Wf(m) && index < m.size
  {
    forall e: Offset :: o <= e < d && IsSet(m.buckets[index].hop, e) ==> m.buckets[Fwd(index, e, m.size)].key != Some(key)
  }

  /**
   * The loop of `map_internal_get` from offset `o`: for every set offset of
   * the home's bitmap, the bucket at that offset is compared with the key.
   */
  function GetFrom(m: Map, key: Key, index: nat, o: nat): (r: Option<nat>)
    requires Wf(m) && index < m.size && o <= NHD_LEN
    ensures r.Some? ==> r.value < m.size && m.buckets[r.value].key == Some(key)
    ensures r.Some? ==> exists d: Offset :: (o <= d && IsSet(m.buckets[index].hop, d)
      && r.value == Fwd(index, d, m.size) && MissedBefore(m, key, index, o, d))
    ensures r.None? ==> MissedBefore(m, key, index, o, NHD_LEN)
    decreases NHD_LEN - o
  {
    if o == NHD_LEN then None
    else if !IsSet(m.buckets[index].hop, o) then GetFrom(m, key, index, o + 1)
    else
      WfExponent(m);
      MoveIndexForward(index, o, Exponent(m.size));
      var j := MoveIndex(index, o, m.size, m.mask);
      if m.buckets[j].key == Some(key) then Some(j) else GetFrom(m, key, index, o + 1)
  }

  /** `map_internal_get`: the bucket holding the key, searched in its home's neighbourhood. */
  function InternalGet(m: Map, mk: MapKey): (r: Option<nat>)
    requires Wf(m) && mk.hash == Fnv1a(mk.value)
    ensures r.Some? ==> r.value < m.size && m.buckets[r.value].key == Some(mk.value)
    ensures Inv(m) ==> (r.Some? <==> Present(m.buckets, mk.value))
  {
    HomeIndex(m, mk.value);
    ScanFinds(m, mk.value);
    GetFrom(m, mk.value, HashIndex(mk.hash, m.mask), 0)
  }

  /** `map_hash_index` of a key's hash is its home bucket. */
  lemma HomeIndex(m: Map, key: Key)
    requires Wf(m)
    ensures HashIndex(Fnv1a(key), m.mask) == Home(key, m.size)
  {
    WfExponent(m);
    HashIndexIsMod(Fnv1a(key), Exponent(m.size));
  }

  /** Under the invariant, the scan of the home's neighbourhood finds the key iff it is present. */
  lemma ScanFinds(m: Map, key: Key)
    requires Wf(m)
    ensures Inv(m) ==> (GetFrom(m, key, Home(key, m.size), 0).Some? <==> Present(m.buckets, key))
  {
    var r := GetFrom(m, key, Home(key, m.size), 0);
    NeighbourhoodFinds(m, key);
  }

  /** Under the invariant, a key that is present sits at a set offset of its home. */
  lemma NeighbourhoodFinds(m: Map, key: Key)
    requires Wf(m)
    ensures Inv(m) && Present(m.buckets, key) ==>
      exists d: Offset :: IsSet(m.buckets[Home(key, m.size)].hop, d)
        && m.buckets[Fwd(Home(key, m.size), d, m.size)].key == Some(key)
  {
    if Inv(m) && Present(m.buckets, key) {
      var bs := m.buckets;
      var j :| 0 <= j < |bs| && bs[j].key == Some(key);
      assert Live(bs, None, j);
      assert InNeighbourhood(bs, j);
      var h := Home(key, m.size);
      FwdOfDist(h, j, m.size);
      assert IsSet(bs[h].hop, Dist(h, j, m.size));
    }
  }

  /**
   * `map_get`: the value stored for the key. Under the invariant it is
   * exactly what the table's contents map the key to.
   */
  function MapGet(m: Map, key: Key): (r: Option<Value>)
    requires Wf(m)
    ensures Inv(m) ==> (r.Some? <==> key in Contents(m.buckets))
    ensures Inv(m) && r.Some? ==> Contents(m.buckets)[key] == r.value
  {
    var found := InternalGet(m, CreateKey(key));
    ContentsOfInv(m);
    match found
    case None => None
    case Some(j) => Some(m.buckets[j].value)
  }

  /** Under the invariant, `map_get` reads the contents. */
  lemma MapGetReads(m: Map, key: Key)
    requires Inv(m)
    ensures MapGet(m, key) == if key in Contents(m.buckets) then Some(Contents(m.buckets)[key]) else None
  {
    var r := MapGet(m, key);
  }

  /** The contents of a map under the invariant, by bucket. */
  lemma ContentsOfInv(m: Map)
    ensures Inv(m) ==> (forall k :: k in Contents(m.buckets) <==> Present(m.buckets, k))
    ensures Inv(m) ==> forall j :: (0 <= j < |m.buckets| && m.buckets[j].key.Some?
                                   ==> m.buckets[j].key.value in Contents(m.buckets)
                                       && Contents(m.buckets)[m.buckets[j].key.value] == m.buckets[j].value)
  {
    if Inv(m) {
      LayoutKeyFunctional(m.buckets, None);
      ContentsChar(m.buckets);
    }
  }
}

=== FILE: uint32.dfy ===
/**
 * Unsigned 32-bit C arithmetic on natural numbers.
 *
 * The map keeps its hash, size and mask in `uint32_t`. Their bit operations
 * (`&`, `|`, `^`, shifts, `~`) are defined here on naturals, bit by bit, so
 * that the meaning of each C expression can be stated and proved in integer
 * terms: `x & (2^k - 1)` is `x % 2^k`, `next_pow2` rounds up to a power of
 * two, and the `constexpr_log2` macro chain computes the floor of log2.
 */
module Uint32 {

  /** 2^32: one more than the largest `uint32_t`. */
  const WORD: nat := 0x1_0000_0000

  predicate IsU32(x: int) {
    0 <= x < WORD
  }

  function Pow2(k: nat): (r: nat)
    ensures r >= 1
  {
    if k == 0 then 1 else 2 * Pow2(k - 1)
  }

  /** A power of two, recognised by repeated halving. */
  predicate IsPow2(n: nat)
    decreases n
  {
    if n <= 1 then n == 1 else n % 2 == 0 && IsPow2(n / 2)
  }

  // ---------------------------------------------------------------------------
  // Division facts
  // ---------------------------------------------------------------------------

  lemma MulNonneg(a: int, b: int)
    requires a >= 0 && b >= 0
    ensures a * b >= 0
  {}

  lemma MulLe(a: int, b: int, c: int)
    requires a >= 0 && b <= c
    ensures a * b <= a * c
  {
    MulNonneg(a, c - b);
  }

  lemma DivModUnique(x: int, d: int, q: int, r: int)
    requires d > 0 && 0 <= r < d && x == d * q + r
    ensures x / d == q && x % d == r
  {
    var q0, r0 := x / d, x % d;
    assert x == d * q0 + r0;
    if q > q0 {
      MulNonneg(d, q - q0 - 1);
    } else if q < q0 {
      MulNonneg(d, q0 - q - 1);
    }
  }

  /** Splitting off the lowest bit: `x mod 2m` from `x/2 mod m`. */
  lemma ModDouble(x: nat, m: nat)
    requires m > 0
    ensures x % (2 * m) == 2 * ((x / 2) % m) + x % 2
  {
    var h := x / 2;
    var q, r := h / m, h % m;
    assert x == 2 * h + x % 2;
    assert h == m * q + r;
    assert x == (2 * m) * q + (2 * r + x % 2);
    DivModUnique(x, 2 * m, q, 2 * r + x % 2);
  }

  lemma {:induction false} Pow2Add(a: nat, b: nat)
    ensures Pow2(a + b) == Pow2(a) * Pow2(b)
  {
    if a > 0 {
      Pow2Add(a - 1, b);
      assert Pow2(a + b) == 2 * Pow2(a - 1 + b);
    }
  }

  lemma {:induction false} Pow2Monotone(j: nat, k: nat)
    requires j < k
    ensures 2 * Pow2(j) <= Pow2(k)
  {
    if j + 1 < k {
      Pow2Monotone(j, k - 1);
    }
  }

  lemma Pow2Le(j: nat, k: nat)
    requires j <= k
    ensures Pow2(j) <= Pow2(k)
  {
    if j < k {
      Pow2Monotone(j, k);
    }
  }

  /** Two powers of two in the same octave are equal. */
  lemma Pow2Injective(j: nat, k: nat)
    requires Pow2(j) <= Pow2(k) < 2 * Pow2(j)
    ensures j == k
  {
    if j < k {
      Pow2Monotone(j, k);
    } else if k < j {
      Pow2Monotone(k, j);
    }
  }

  lemma {:induction false} Pow2IsPow2(k: nat)
    ensures IsPow2(Pow2(k))
  {
    if k > 0 {
      Pow2IsPow2(k - 1);
      assert Pow2(k) / 2 == Pow2(k - 1);
    }
  }

  /** The exponent of a power of two. */
  function Exponent(n: nat): (k: nat)
    requires IsPow2(n)
    ensures Pow2(k) == n
    decreases n
  {
    if n <= 1 then 0 else 1 + Exponent(n / 2)
  }

  // ---------------------------------------------------------------------------
  // Bitwise operations on naturals
  // ---------------------------------------------------------------------------

  function BitAnd(a: nat, b: nat): nat
    decreases a
  {
    if a == 0 || b == 0 then 0
    else 2 * BitAnd(a / 2, b / 2) + (if a % 2 == 1 && b % 2 == 1 then 1 else 0)
  }

  function BitOr(a: nat, b: nat): nat
    decreases a + b
  {
    if a == 0 && b == 0 then 0
    else 2 * BitOr(a / 2, b / 2) + (if a % 2 == 1 || b % 2 == 1 then 1 else 0)
  }

  function BitXor(a: nat, b: nat): nat
    decreases a + b
  {
    if a == 0 && b == 0 then 0
    else 2 * BitXor(a / 2, b / 2) + (if a % 2 != b % 2 then 1 else 0)
  }

  /** `x >> s`: `s` halvings. */
  function ShiftRight(x: nat, s: nat): nat
    decreases s
  {
    if s == 0 then x else ShiftRight(x / 2, s - 1)
  }

  /** `x << s` on `uint32_t`: high bits fall off. */
  function ShiftLeft(x: nat, s: nat): nat {
    (x * Pow2(s)) % WORD
  }

  /** `~x` on `uint32_t` */
  function Complement(x: nat): nat
    requires IsU32(x)
  {
    WORD - 1 - x
  }

  /** `~(~0u << k)`: the C idiom for a mask of the `k` low bits. */
  function LowOnes(k: nat): nat {
    Complement(ShiftLeft(WORD - 1, k))
  }

  /** Bit `i` of `x`, counting from the least significant. */
  predicate Bit(x: nat, i: nat)
    decreases i
  {
    if i == 0 then x % 2 == 1 else Bit(x / 2, i - 1)
  }

  lemma Pow2Literals()
    ensures Pow2(5) == 32 && Pow2(8) == 256 && Pow2(16) == 65536
    ensures Pow2(31) == 0x8000_0000 && Pow2(32) == WORD
  {
    assert Pow2(4) == 16;
    Pow2Add(4, 4);
    Pow2Add(8, 8);
    Pow2Add(16, 16);
  }

  /** `k` low bits set is `2^k - 1`, for every `k` a C shift allows. */
  lemma LowOnesValue(k: nat)
    requires k < 32
    ensures LowOnes(k) == Pow2(k) - 1
  {
    Pow2Monotone(k, 32);
    Pow2Literals();
    var p := Pow2(k);
    assert (WORD - 1) * p == WORD * (p - 1) + (WORD - p);
    DivModUnique((WORD - 1) * p, WORD, p - 1, WORD - p);
  }

  /** Masking with `2^k - 1` keeps the remainder modulo `2^k`. */
  lemma AndOddMask(x: nat, mask: nat)
    requires x > 0 && mask % 2 == 1
    ensures BitAnd(x, mask) == 2 * BitAnd(x / 2, mask / 2) + x % 2
  {}

  lemma LowOnesHalf(k: nat)
    requires k > 0
    ensures (Pow2(k) - 1) / 2 == Pow2(k - 1) - 1 && (Pow2(k) - 1) % 2 == 1
  {}

  /** The remainder modulo `2^k` from the remainder of `x / 2` modulo `2^(k-1)`. */
  lemma ModPow2Step(x: nat, k: nat)
    requires k > 0
    ensures x % Pow2(k) == 2 * ((x / 2) % Pow2(k - 1)) + x % 2
  {
    var m := Pow2(k - 1);
    assert Pow2(k) == 2 * m;
    ModDouble(x, m);
  }

  /** Masking with `2^k - 1` keeps the remainder modulo `2^k`. */
  lemma {:induction false} AndLowOnes(x: nat, k: nat)
    ensures BitAnd(x, Pow2(k) - 1) == x % Pow2(k)
  {
    if k == 0 {
      DivModUnique(x, 1, x, 0);
    } else if x == 0 {
      DivModUnique(0, Pow2(k), 0, 0);
    } else {
      var mask, half := Pow2(k) - 1, Pow2(k - 1) - 1;
      LowOnesHalf(k);
      AndOddMask(x, mask);
      assert BitAnd(x, mask) == 2 * BitAnd(x / 2, half) + x % 2;
      AndLowOnes(x / 2, k - 1);
      ModPow2Step(x, k);
    }
  }

  lemma {:induction false} OrZero(a: nat)
    ensures BitOr(a, 0) == a
    decreases a
  {
    if a > 0 {
      OrZero(a / 2);
    }
  }

  /** `n | 1` for even `n` is `n + 1`. */
  lemma OrOneOfEven(n: nat)
    requires n % 2 == 0
    ensures BitOr(n, 1) == n + 1
  {
    OrZero(n / 2);
  }

  lemma {:induction false} BitOfZero(i: nat)
    ensures !Bit(0, i)
  {
    if i > 0 {
      BitOfZero(i - 1);
    }
  }

  /** Bit `i` of `x >> s` is bit `i + s` of `x`. */
  lemma {:induction false} BitOfShift(x: nat, s: nat, i: nat)
    ensures Bit(ShiftRight(x, s), i) == Bit(x, i + s)
    decreases s
  {
    if s > 0 {
      BitOfShift(x / 2, s - 1, i);
    }
  }

  lemma {:induction false} BitOfOr(a: nat, b: nat, i: nat)
    ensures Bit(BitOr(a, b), i) == (Bit(a, i) || Bit(b, i))
    decreases i
  {
    if i == 0 {
    } else if a == 0 && b == 0 {
      assert BitOr(a, b) == 0;
    } else {
      assert BitOr(a, b) / 2 == BitOr(a / 2, b / 2);
      BitOfOr(a / 2, b / 2, i - 1);
    }
  }

  lemma {:induction false} OrBound(a: nat, b: nat, k: nat)
    requires a < Pow2(k) && b < Pow2(k)
    ensures BitOr(a, b) < Pow2(k)
    decreases k
  {
    if k > 0 && !(a == 0 && b == 0) {
      OrBound(a / 2, b / 2, k - 1);
    }
  }

  /** No bit at or above `k` is set in a number below `2^k`. */
  lemma {:induction false} HighBitsClear(x: nat, k: nat, i: nat)
    requires x < Pow2(k) && k <= i
    ensures !Bit(x, i)
    decreases i
  {
    if i == 0 {
      assert x == 0;
    } else if k == 0 {
      assert x == 0;
      BitOfZero(i);
    } else {
      HighBitsClear(x / 2, k - 1, i - 1);
    }
  }

  /** The leading bit: a number in `[2^i, 2^(i+1))` has bit `i` set. */
  lemma {:induction false} TopBit(x: nat, i: nat)
    requires Pow2(i) <= x < 2 * Pow2(i)
    ensures Bit(x, i)
    decreases i
  {
    if i > 0 {
      TopBit(x / 2, i - 1);
    }
  }

  /** `x` and `y` agree on bits `0 .. k-1`. */
  predicate SameLowBits(x: nat, y: nat, k: nat) {
    forall i :: 0 <= i < k ==> Bit(x, i) == Bit(y, i)
  }

  /** Numbers below `2^k` that agree on bits `0 .. k-1` are equal. */
  lemma {:induction false} BitsDetermine(x: nat, y: nat, k: nat)
    requires x < Pow2(k) && y < Pow2(k)
    requires SameLowBits(x, y, k)
    ensures x == y
    decreases k
  {
    if k > 0 {
      forall i | 0 <= i < k - 1
        ensures Bit(x / 2, i) == Bit(y / 2, i)
      {
        assert Bit(x, i + 1) == Bit(y, i + 1);
      }
      BitsDetermine(x / 2, y / 2, k - 1);
      assert Bit(x, 0) == Bit(y, 0);
    }
  }

  /** `2^k - 1` has exactly the bits below `k` set. */
  lemma {:induction false} BitOfLowOnes(k: nat, i: nat)
    ensures Bit(Pow2(k) - 1, i) == (i < k)
    decreases k
  {
    if k == 0 {
      BitOfZero(i);
    } else if i > 0 {
      assert (Pow2(k) - 1) / 2 == Pow2(k - 1) - 1;
      BitOfLowOnes(k - 1, i - 1);
    }
  }

  /** The number of significant bits of `x`. */
  function BitLength(x: nat): nat
    decreases x
  {
    if x == 0 then 0 else 1 + BitLength(x / 2)
  }

  /** `x` lies in `[2^(l-1), 2^l)` for its bit length `l`. */
  lemma {:induction false} BitLengthRange(x: nat)
    ensures x < Pow2(BitLength(x))
    ensures x > 0 ==> BitLength(x) > 0 && Pow2(BitLength(x) - 1) <= x
    decreases x
  {
    if x > 0 {
      BitLengthRange(x / 2);
    }
  }

  /** Whether any of bits `i .. i+w-1` of `x` is set. */
  predicate AnyBit(x: nat, i: nat, w: nat)
    decreases w
  {
    w > 0 && (Bit(x, i) || AnyBit(x, i + 1, w - 1))
  }

  lemma {:induction false} AnyBitSplit(x: nat, i: nat, w1: nat, w2: nat)
    ensures AnyBit(x, i, w1 + w2) == (AnyBit(x, i, w1) || AnyBit(x, i + w1, w2))
    decreases w1
  {
    if w1 > 0 {
      AnyBitSplit(x, i + 1, w1 - 1, w2);
    }
  }

  /** A window reaching the bit length of `x` holds a set bit iff it starts below that length. */
  lemma {:induction false} AnyBitOfLength(x: nat, i: nat, w: nat)
    requires BitLength(x) <= i + w
    ensures AnyBit(x, i, w) == (i < BitLength(x))
    decreases w
  {
    var l := BitLength(x);
    BitLengthRange(x);
    if w > 0 {
      AnyBitOfLength(x, i + 1, w - 1);
      if i >= l {
        HighBitsClear(x, l, i);
      } else if i == l - 1 {
        TopBit(x, i);
      }
    }
  }

  lemma {:induction false} BitLengthOfPow2(k: nat)
    ensures BitLength(Pow2(k)) == k + 1
  {
    if k > 0 {
      assert Pow2(k) / 2 == Pow2(k - 1);
      BitLengthOfPow2(k - 1);
    }
  }

  lemma {:induction false} BitLengthOfLowOnes(k: nat)
    ensures BitLength(Pow2(k) - 1) == k
  {
    if k > 0 {
      assert (Pow2(k) - 1) / 2 == Pow2(k - 1) - 1;
      BitLengthOfLowOnes(k - 1);
    }
  }

  lemma {:induction false} BitLengthBound(x: nat, k: nat)
    requires x < Pow2(k)
    ensures BitLength(x) <= k
    decreases x
  {
    if x > 0 {
      BitLengthBound(x / 2, k - 1);
    }
  }

  /** One step of the smearing in `next_pow2`: `x |= x >> s`. */
  function Smear(x: nat, s: nat): nat {
    BitOr(x, ShiftRight(x, s))
  }

  /**
   * The first `n` shift-or steps of `next_pow2`, shifting by 1, 2, 4, ...,
   * `2^(n-1)`; the C code performs five of them.
   */
  function SmearSteps(x: nat, n: nat): nat
    decreases n
  {
    if n == 0 then x else Smear(SmearSteps(x, n - 1), Pow2(n - 1))
  }

  lemma SmearBits(x: nat, a: nat, s: nat, i: nat)
    requires forall j :: Bit(x, j) == AnyBit(a, j, s)
    ensures Bit(Smear(x, s), i) == AnyBit(a, i, 2 * s)
  {
    BitOfOr(x, ShiftRight(x, s), i);
    BitOfShift(x, s, i);
    AnyBitSplit(a, i, s, s);
  }

  /** `next_pow2` shifts by 1, 2, 4, 8 and 16: five steps cover 32 bits. */
  const SMEAR_STEPS: nat := 5

  // ---------------------------------------------------------------------------
  // The integer helpers of the map
  // ---------------------------------------------------------------------------

  /**
   * `next_pow2`: decrement (wrapping), smear the highest set bit into every
   * lower position with five shift-or steps, increment (wrapping).
   */
  function NextPow2(value: nat): nat
    requires IsU32(value)
  {
    (SmearSteps((value - 1) % WORD, SMEAR_STEPS) + 1) % WORD
  }

  /** After `n` steps, bit `j` is set iff one of bits `j .. j + 2^n - 1` of the input is. */
  lemma {:induction false} SmearStepsBits(a: nat, n: nat, j: nat)
    ensures Bit(SmearSteps(a, n), j) == AnyBit(a, j, Pow2(n))
    decreases n
  {
    if n > 0 {
      var x := SmearSteps(a, n - 1);
      forall i ensures Bit(x, i) == AnyBit(a, i, Pow2(n - 1)) {
        SmearStepsBits(a, n - 1, i);
      }
      SmearBits(x, a, Pow2(n - 1), j);
    }
  }

  lemma {:induction false} ShiftRightBound(x: nat, s: nat, k: nat)
    requires x < Pow2(k)
    ensures ShiftRight(x, s) <= x < Pow2(k)
    decreases s
  {
    if s > 0 {
      ShiftRightBound(x / 2, s - 1, k);
    }
  }

  lemma {:induction false} SmearStepsBound(a: nat, n: nat, k: nat)
    requires a < Pow2(k)
    ensures SmearSteps(a, n) < Pow2(k)
    decreases n
  {
    if n > 0 {
      var x := SmearSteps(a, n - 1);
      SmearStepsBound(a, n - 1, k);
      ShiftRightBound(x, Pow2(n - 1), k);
      OrBound(x, ShiftRight(x, Pow2(n - 1)), k);
    }
  }

  lemma SmearFiveBits(a: nat, i: nat)
    ensures Bit(SmearSteps(a, SMEAR_STEPS), i) == AnyBit(a, i, 32)
  {
    Pow2Literals();
    SmearStepsBits(a, SMEAR_STEPS, i);
  }

  /** A number below `2^k` whose set bits are exactly those below `l` is `2^l - 1`. */
  lemma LowOnesByBits(x: nat, l: nat, k: nat)
    requires x < Pow2(k) && l <= k
    requires forall i :: 0 <= i < k ==> Bit(x, i) == (i < l)
    ensures x == Pow2(l) - 1
  {
    forall i | 0 <= i < k
      ensures Bit(x, i) == Bit(Pow2(l) - 1, i)
    {
      BitOfLowOnes(l, i);
    }
    Pow2Le(l, k);
    BitsDetermine(x, Pow2(l) - 1, k);
  }

  lemma SmearAllBit(a: nat, i: nat)
    requires BitLength(a) <= 32 && i < 32
    ensures Bit(SmearSteps(a, SMEAR_STEPS), i) == (i < BitLength(a))
  {
    SmearFiveBits(a, i);
    AnyBitOfLength(a, i, 32);
  }

  /** After the five smearing steps of `next_pow2`, all bits below the bit length are set. */
  lemma SmearAll(a: nat)
    requires a < Pow2(32)
    ensures SmearSteps(a, SMEAR_STEPS) == Pow2(BitLength(a)) - 1
  {
    BitLengthBound(a, 32);
    SmearStepsBound(a, SMEAR_STEPS, 32);
    forall i | 0 <= i < 32
      ensures Bit(SmearSteps(a, SMEAR_STEPS), i) == (i < BitLength(a))
    {
      SmearAllBit(a, i);
    }
    LowOnesByBits(SmearSteps(a, SMEAR_STEPS), BitLength(a), 32);
  }

  lemma ModSmall(x: int, m: int)
    requires 0 <= x < m
    ensures x % m == x
  {
    DivModUnique(x, m, 0, x);
  }

  /**
   * What `next_pow2` computes, stated without bit tricks: the least power of
   * two that is at least `v`, or 0 when that power does not fit in 32 bits.
   * For `v = 0` the decrement wraps and the result is 0 as well.
   */
  function CeilPow2(v: nat): nat
    requires IsU32(v)
  {
    if v == 0 || v > 0x8000_0000 then 0 else Pow2(BitLength(v - 1))
  }

  /** `CeilPow2(v)` is a power of two in `[v, 2v)` when it does not overflow. */
  lemma CeilPow2Bounds(v: nat)
    requires 1 <= v <= 0x8000_0000
    ensures IsPow2(CeilPow2(v)) && v <= CeilPow2(v) < 2 * v
  {
    var l := BitLength(v - 1);
    BitLengthRange(v - 1);
    Pow2IsPow2(l);
    if v > 1 {
      assert Pow2(l) == 2 * Pow2(l - 1);
    }
  }

  /** The smeared value plus one is `2^BitLength(a)`, reduced modulo `2^32`. */
  lemma SmearPlusOne(a: nat)
    requires a < WORD
    ensures (SmearSteps(a, SMEAR_STEPS) + 1) % WORD == Pow2(BitLength(a)) % WORD
  {
    Pow2Literals();
    SmearAll(a);
  }

  /** `2^BitLength(a)` fits in 32 bits exactly when `a < 2^31`. */
  lemma BitLengthWraps(a: nat)
    requires a < WORD
    ensures Pow2(BitLength(a)) % WORD == if a < 0x8000_0000 then Pow2(BitLength(a)) else 0
  {
    var l := BitLength(a);
    Pow2Literals();
    BitLengthRange(a);
    BitLengthBound(a, 32);
    if a < 0x8000_0000 {
      BitLengthBound(a, 31);
      Pow2Le(l, 31);
      ModSmall(Pow2(l), WORD);
    } else {
      if l < 32 {
        Pow2Le(l, 31);
      }
      assert l == 32;
    }
  }

  /** `next_pow2` computes `CeilPow2` on every 32-bit input, wrap-arounds included. */
  lemma NextPow2IsCeilPow2(v: nat)
    requires IsU32(v)
    ensures NextPow2(v) == CeilPow2(v)
  {
    var a := (v - 1) % WORD;
    if v == 0 {
      assert a == WORD - 1;
    } else {
      ModSmall(v - 1, WORD);
    }
    SmearPlusOne(a);
    BitLengthWraps(a);
  }

  /** `CeilPow2` leaves a power of two unchanged. */
  lemma CeilPow2OfPow2(k: nat)
    requires k <= 31
    ensures Pow2(k) <= 0x8000_0000
    ensures CeilPow2(Pow2(k)) == Pow2(k)
  {
    Pow2Literals();
    Pow2Le(k, 31);
    BitLengthOfLowOnes(k);
  }

  /** Rounding up is idempotent on the inputs where it does not overflow. */
  lemma CeilPow2Idempotent(v: nat)
    requires 1 <= v <= 0x8000_0000
    ensures CeilPow2(v) <= 0x8000_0000
    ensures CeilPow2(CeilPow2(v)) == CeilPow2(v)
  {
    Pow2Literals();
    BitLengthBound(v - 1, 31);
    CeilPow2OfPow2(BitLength(v - 1));
  }

  /** No power of two lies in `[v, CeilPow2(v))`: the rounding is to the least one. */
  lemma CeilPow2Least(v: nat, k: nat)
    requires 1 <= v <= 0x8000_0000 && v <= Pow2(k)
    ensures CeilPow2(v) <= Pow2(k)
  {
    var l := BitLength(v - 1);
    BitLengthRange(v - 1);
    if k < l {
      Pow2Le(k, l - 1);
    }
    Pow2Le(l, k);
  }

  /** For a power of two `size >= 2`, `size | 1` is `size + 1`. */
  lemma OrOneOfPow2(k: nat)
    requires k >= 1
    ensures BitOr(Pow2(k), 1) == Pow2(k) + 1
  {
    var p := Pow2(k);
    assert p == 2 * Pow2(k - 1);
    OrOneOfEven(p);
  }

  lemma Pow2Below31(k: nat)
    requires k <= 30
    ensures 2 * Pow2(k) <= 0x8000_0000
  {
    Pow2Literals();
    Pow2Monotone(k, 31);
  }

  /** Growing requests `size | 1`, which for a power of two `2 <= size <= 2^30` rounds up to `2 * size`. */
  lemma GrowRequestDoubles(k: nat)
    requires 1 <= k <= 30
    ensures Pow2(k) + 1 <= 0x8000_0000
    ensures CeilPow2(Pow2(k) + 1) == 2 * Pow2(k)
  {
    var p := Pow2(k);
    Pow2Below31(k);
    assert CeilPow2(p + 1) == Pow2(BitLength(p));
    BitLengthOfPow2(k);
    assert Pow2(k + 1) == 2 * p;
  }

  // ---------------------------------------------------------------------------
  // constexpr_log2: a chain of macros halving the width at every level
  // ---------------------------------------------------------------------------

  function PLog1(n: nat): nat { if n >= 2 then 1 else 0 }
  function PLog2(n: nat): nat { if n >= 4 then 2 + PLog1(n / 4) else PLog1(n) }
  function PLog4(n: nat): nat { if n >= 16 then 4 + PLog2(n / 16) else PLog2(n) }
  function PLog8(n: nat): nat { if n >= 256 then 8 + PLog4(n / 256) else PLog4(n) }

  /** `constexpr_log2` / `log2_64` */
  function Log2(n: nat): nat {
    if n >= 65536 then 16 + PLog8(n / 65536) else PLog8(n)
  }

  predicate FloorLog(n: nat, r: nat) {
    Pow2(r) <= n < Pow2(r + 1)
  }

  lemma DivBounds(n: nat, p: nat, q: nat)
    requires p > 0 && q == n / p
    ensures p * q <= n < p * q + p
  {}

  /** Bounds on a quotient scale back to bounds on the dividend. */
  lemma ScaleBounds(n: int, p: int, q: int, lo: int, hi: int, a: int, b: int)
    requires p > 0 && p * q <= n < p * q + p && lo <= q < hi
    requires a == lo * p && b == hi * p
    ensures a <= n < b
  {
    MulLe(p, lo, q);
    MulLe(p, q + 1, hi);
  }

  /** If `r` is the floor log of `q = n / 2^s`, then `r + s` is the floor log of `n`. */
  lemma FloorLogShift(n: nat, s: nat, q: nat, r: nat)
    requires q == n / Pow2(s) && FloorLog(q, r)
    ensures FloorLog(n, r + s)
  {
    Pow2Add(r, s);
    Pow2Add(r + 1, s);
    DivBounds(n, Pow2(s), q);
    ScaleBounds(n, Pow2(s), q, Pow2(r), Pow2(r + 1), Pow2(r + s), Pow2(r + 1 + s));
  }

  lemma PLog2Floor(n: nat)
    requires 1 <= n < 16
    ensures FloorLog(n, PLog2(n))
  {
    if n >= 4 {
      assert Pow2(2) == 4;
      FloorLogShift(n, 2, n / 4, PLog1(n / 4));
    }
  }

  lemma PLog4Floor(n: nat)
    requires 1 <= n < 256
    ensures FloorLog(n, PLog4(n))
  {
    if n >= 16 {
      PLog2Floor(n / 16);
      assert Pow2(4) == 16;
      FloorLogShift(n, 4, n / 16, PLog2(n / 16));
    } else {
      PLog2Floor(n);
    }
  }

  lemma PLog8Floor(n: nat)
    requires 1 <= n < 65536
    ensures FloorLog(n, PLog8(n))
  {
    if n >= 256 {
      PLog4Floor(n / 256);
      assert Pow2(8) == 256;
      FloorLogShift(n, 8, n / 256, PLog4(n / 256));
    } else {
      PLog4Floor(n);
    }
  }

  /** `constexpr_log2(n)` is the floor of log2 `n` on `1 .. 2^32 - 1`, and 0 for `n = 0`. */
  lemma Log2Floor(n: nat)
    requires n < WORD
    ensures n == 0 ==> Log2(n) == 0
    ensures n >= 1 ==> Pow2(Log2(n)) <= n < Pow2(Log2(n) + 1)
  {
    if n >= 65536 {
      var q := n / 65536;
      DivBounds(n, 65536, q);
      PLog8Floor(q);
      Pow2Literals();
      FloorLogShift(n, 16, q, PLog8(q));
      assert Log2(n) == PLog8(q) + 16;
      assert FloorLog(n, Log2(n));
    } else if n >= 1 {
      PLog8Floor(n);
      assert Log2(n) == PLog8(n);
    }
  }

  lemma Log2OfPow2(k: nat)
    requires k < 32
    ensures Log2(Pow2(k)) == k
  {
    Pow2Monotone(k, 32);
    Pow2Literals();
    Log2Floor(Pow2(k));
    Pow2Injective(Log2(Pow2(k)), k);
  }
}

=== FILE: wrappers.dfy ===
/** Optional values, used where the C code returns 0 for "not found" or "failed". */
module Wrappers {

  datatype Option<+T> = None | Some(value: T)
}
